=== FILE: README.md ===
# fast-thrift transports in Dafny

A model of the byte-level transport layer of fast-thrift
(`lib/thrift/transport.js`), the layer beneath the Thrift wire protocol.
It covers the two transports the file implements.

- **Framed transport.** `TFramedTransport.receiver` is a per-connection
  state machine. It turns arbitrarily split chunks into frames of the
  form `[4-byte big-endian signed length][payload]`, and hands each
  completed payload to its callback as a fresh `TFramedTransport`.
  Reads on that transport walk one monotonic cursor over the immutable
  payload. Writes fill a chain of chunks. `flush` sends the filled bytes
  behind their total length.
- **Buffered transport.** `TBufferedTransport.receiver` appends every
  chunk to one growable input buffer and calls back with the same shared
  reader. Reads are gated by an underrun check. `commitPosition` compacts
  the buffer and `rollbackPosition` rewinds the read cursor, so the
  protocol layer can retry a parse once more data arrives. Writes go into
  a 512-byte scratch buffer, which is flushed eagerly when full; an
  oversized write bypasses it.

Everything is a pure function over immutable records. Byte strings are
`seq<byte>`, where `byte` is an integer newtype of range 0..255. Cursors
are natural numbers.

| file | module | what it models |
|---|---|---|
| bytes.dfy | `Bytes` | big-endian two's-complement codecs (readInt8, readInt16BE, readInt32BE, writeInt32BE) and concatenation |
| framed.dfy | `FramedTransport` | the framed reader/writer |
| frame_receiver.dfy | `FrameReceiver` | the frame assembler, a reference frame parser, and the corrected assembler |
| framed_wire.dfy | `FramedWire` | flush output fed back through the assembler and read again |
| buffered.dfy | `BufferedTransport` | the buffered receiver, reads, commit/rollback, write/flush |
| buffered_replay.dfy | `BufferedReplay` | sequences of reads against a reference over the unread bytes; retry after rollback |

Representation choices:

- Memory that Node allocates without initialising is never read by the
  source. The model abstracts it in three places:
  - a framed output chunk is `Chunk(size, filled)`, whose `cur` is `|filled|`;
  - a frame being assembled keeps only the bytes received so far, so
    `framePos` is `|frame|`;
  - the buffered input buffer is filled with zero bytes where its
    contents are unspecified.
- The buffered scratch buffer is kept as `pending`, which is
  `outBuffers[0..outCount)`.
- The receiver's `residual` is the empty sequence where the source holds
  `null`. The source only ever stores one to three bytes there, so the
  two readings agree.
- The sink is a boolean `hasSink`. Each operation returns, in order, the
  buffers it hands to the sink.
- A callback that the source calls with a transport is modelled by
  returning that transport, or the list of them.

In three places the code behaves in ways its names do not suggest; the
model follows the code:

- The framed `readAll` returns the whole payload, not the unread rest,
  and it leaves the cursor where it is (transport.js:124-126).
- The framed `readString` has no bounds check (transport.js:118-122).
  The byte range is clipped to the payload, yet the cursor still
  advances by the full length and can pass the end of the frame.
- The receiver's residual is never cleared (see Findings).

## Model

| member | source | states |
|---|---|---|
| Bytes.DecodeI8 | lib/thrift/transport.js:96-98 | a byte read as a signed 8-bit value lies in -128..127, is negative exactly when the top bit is set, and is congruent to the byte modulo 256 |
| Bytes.DecodeI16 | lib/thrift/transport.js:100-104 | two bytes read big-endian as a signed 16-bit value: range, sign from the first byte, congruent to the unsigned reading modulo 2^16 |
| Bytes.DecodeI32 | lib/thrift/transport.js:53 | four bytes read big-endian as a signed 32-bit value: always in the int32 range, negative exactly when the first byte's top bit is set, and congruent to the unsigned big-endian reading modulo 2^32 |
| Bytes.EncodeI32 | lib/thrift/transport.js:151 | writing an int32 as four big-endian bytes is undone by reading them back |
| Bytes.EncodeDecodeI32 | lib/thrift/transport.js:53 | every four-byte pattern is the encoding of the value it decodes to (the codec is a bijection) |
| FramedTransport.New | lib/thrift/transport.js:24-30 | a new framed transport reads the given payload from position 0 and has nothing written |
| FramedTransport.Read | lib/thrift/transport.js:84-94 | read(len) fails exactly when readPos + len passes the payload end, leaving the state alone; otherwise it returns the len payload bytes at readPos and advances readPos by exactly len, nothing else changing |
| FramedTransport.ReadConsecutive | lib/thrift/transport.js:84-94 | two consecutive reads return the two halves of one read of the summed length and end in the same state |
| FramedTransport.ReadByte | lib/thrift/transport.js:96-98 | readByte is the signed reading of what read(1) returns and advances the cursor by 1 |
| FramedTransport.ReadI16 | lib/thrift/transport.js:100-104 | readI16 fails exactly when read(2) would, with no state change; otherwise it decodes what read(2) returns and advances the cursor by 2 |
| FramedTransport.ReadI32 | lib/thrift/transport.js:106-110 | readI32 fails exactly when read(4) would, with no state change; otherwise it decodes what read(4) returns and advances the cursor by 4 |
| FramedTransport.ReadDouble | lib/thrift/transport.js:112-116 | readDouble fails exactly when read(8) would, with no state change, and otherwise consumes exactly what read(8) consumes |
| FramedTransport.ReadString | lib/thrift/transport.js:118-122 | readString never fails and always advances the cursor by len; it agrees with read(len) whenever the bytes are there, returns the bytes from readPos to the payload end when the range runs past it, and nothing when readPos is already past the end |
| FramedTransport.ReadAll | lib/thrift/transport.js:124-126 | readAll leaves the transport unchanged and, whatever the cursor, returns what reading the whole payload from position 0 would |
| FramedTransport.ReadAllIgnoresCursor | lib/thrift/transport.js:124-126 | a read before readAll does not change what readAll returns, and the bytes the read took sit in it at the position they were read from |
| FramedTransport.CommitPosition | lib/thrift/transport.js:76 | commit on a frame changes nothing: payload, cursor and the write side are all kept |
| FramedTransport.RollbackPosition | lib/thrift/transport.js:77 | rollback on a frame changes nothing: payload, cursor and the write side are all kept, so unlike the buffered reader it does not rewind |
| FramedTransport.PositionNoOps | lib/thrift/transport.js:76-94 | a commit and a rollback after a read leave the cursor past the bytes read, and the next read returns what it would have returned without them |
| FramedTransport.Write | lib/thrift/transport.js:128-144 | len <= 0 changes nothing; otherwise outCount grows by exactly len, the written bytes become the old ones followed by the first len bytes of buf, and every chunk keeps cur within its size of at least 1024 |
| FramedTransport.SumCurIsWrittenLength | lib/thrift/transport.js:143-155 | the chunks' fill offsets add up to the number of bytes flush will copy |
| FramedTransport.WriteAllAppends | lib/thrift/transport.js:128-144 | a series of writes appends the concatenation of the buffers, in order, and adds its length to outCount, however the chunks were split |
| FramedTransport.Flush | lib/thrift/transport.js:146-163 | with a sink, exactly one buffer is sent: four bytes that decode to outCount, then every chunk's filled bytes; without one nothing is sent; either way outBuffers is emptied and outCount reset; a total beyond 2^31-1 fails with the state unchanged |
| FramedTransport.ReadManyReturnsWrites | lib/thrift/transport.js:84-94 | reading back, one by one, the lengths of buffers whose concatenation sits at the cursor returns exactly those buffers and moves the cursor past them |
| FrameReceiver.Drain | lib/thrift/transport.js:44-71 | the chunk loop keeps every frame in progress within its int32 length, and stashes a residual only between frames and only of one to three bytes |
| FrameReceiver.ParseReassembles | lib/thrift/transport.js:53-64 | the reference frame reading loses nothing: a stream equals its complete frames re-framed followed by the rest, and the rest never holds a complete frame |
| FrameReceiver.ParseWire | lib/thrift/transport.js:53-64 | a stream of whole frames reads back as exactly those payloads, empty ones included, with nothing left over |
| FrameReceiver.ParseAppend | lib/thrift/transport.js:44-71 | more bytes after a stream only extend what follows its last complete frame, and a negative prefix stays fatal |
| FrameReceiver.DrainMatchesParse | lib/thrift/transport.js:44-71 | one pass of the loop emits exactly the frames the reference reading finds in the frame in progress followed by the chunk, in order, and keeps exactly the incomplete rest, as a frame in progress or a stash; it stops exactly at a negative prefix |
| FrameReceiver.Step | lib/thrift/transport.js:37-72 | the callback on one chunk keeps the receiver state valid and never clears a stored residual |
| FrameReceiver.Feed | lib/thrift/transport.js:31-72 | over a list of chunks the receiver stays valid and a residual, once stored, stays stored |
| FrameReceiver.FeedMatchesParse | lib/thrift/transport.js:39-71 | on traces where no residual was ever stored, the payloads emitted are exactly the complete frames of the concatenated chunks, in order, and the frame in progress holds exactly the rest |
| FrameReceiver.WireReassembly | lib/thrift/transport.js:44-71 | whole frames split into chunks so that no residual is stored come out as exactly those payloads, each once and in order, empty ones included, leaving the receiver between frames |
| FrameReceiver.StaleResidualCounterexample | lib/thrift/transport.js:39-49 | a three-chunk split of the frames [], [], [2A] makes the source emit [], [], [] and keep [00 01 2A] as residual, where the corrected receiver emits [], [], [2A] |
| FrameReceiver.StepFixed | lib/thrift/transport.js:37-72 | with the residual consumed by the chunk it is prepended to, a residual is only ever held between frames |
| FrameReceiver.FeedFixedMatchesParse | lib/thrift/transport.js:37-72 | with the residual consumed, for every split into chunks, the payloads delivered are exactly the complete frames of the stream, the receiver holds back exactly the incomplete rest, and it stops exactly where the stream has a negative prefix |
| FrameReceiver.FixedWireReassembly | lib/thrift/transport.js:44-71 | with the residual consumed, whole frames split in any way come out as exactly those payloads in order, leaving nothing held back |
| FramedWire.Transports | lib/thrift/transport.js:64 | each emitted payload is handed over as a fresh transport reading that payload from position 0 |
| FramedWire.FlushIsFrame | lib/thrift/transport.js:146-155 | a flushed buffer is exactly one frame on the wire carrying the written bytes |
| FramedWire.FlushThenReceive | lib/thrift/transport.js:146-158 | flush output fed as one chunk to a fresh receiver yields exactly one frame whose payload is the written bytes, and leaves the receiver idle with no residual |
| FramedWire.FlushThenReceiveSplit | lib/thrift/transport.js:146-158 | with the residual consumed, the same holds however the flushed buffer is split |
| FramedWire.WriteFlushReceiveRead | lib/thrift/transport.js:128-158 | buffers written, flushed, received in any split and read back one by one are exactly the buffers written |
| BufferedTransport.New | lib/thrift/transport.js:168-177 | a new buffered transport has a 1024-byte input buffer, both cursors at 0, nothing unread and nothing pending |
| BufferedTransport.Append | lib/thrift/transport.js:181-188 | a chunk is copied in at writeCursor; bytes before writeCursor are kept; capacity becomes exactly writeCursor + len when the chunk does not fit and is untouched otherwise; writeCursor grows by the chunk length; the unread bytes gain the chunk at their end; readCursor <= writeCursor <= capacity is kept |
| BufferedTransport.Serve | lib/thrift/transport.js:178-192 | the callback runs exactly once per chunk; the first reader's unread bytes are the earlier ones followed by the first chunk, each later reader's are what the callback left unread in the previous one followed by that chunk, and the final reader is what the callback left after the last chunk (or the starting reader when there are no chunks) |
| BufferedTransport.ServeShares | lib/thrift/transport.js:178-192 | the reader handed over for a chunk is exactly the reader the callback left after the previous chunk (the starting one for the first), with the chunk appended: one reader is shared across all chunks |
| BufferedTransport.ServeKeepsBytes | lib/thrift/transport.js:178-192 | with a callback that reads nothing, the unread bytes are the earlier ones followed by all chunks in arrival order |
| BufferedTransport.Read | lib/thrift/transport.js:212-224 | read(len) underruns with no state change exactly when len exceeds the unread count; otherwise it returns the first len unread bytes and advances readCursor by exactly len |
| BufferedTransport.ReadByte | lib/thrift/transport.js:226-229 | readByte underruns exactly when read(1) would, and otherwise is the signed reading of its byte with the same cursor advance |
| BufferedTransport.ReadI16 | lib/thrift/transport.js:231-236 | readI16 underruns exactly when read(2) would, and otherwise decodes its bytes with the same cursor advance |
| BufferedTransport.ReadI32 | lib/thrift/transport.js:238-243 | readI32 underruns exactly when read(4) would, and otherwise decodes its bytes with the same cursor advance |
| BufferedTransport.ReadDouble | lib/thrift/transport.js:245-250 | readDouble consumes exactly what read(8) consumes |
| BufferedTransport.ReadString | lib/thrift/transport.js:252-257 | readString(len) consumes exactly what read(len) consumes |
| BufferedTransport.ReadAll | lib/thrift/transport.js:260-268 | readAll underruns exactly when nothing is unread; otherwise it returns all unread bytes and leaves none |
| BufferedTransport.CommitPosition | lib/thrift/transport.js:195-202 | commit keeps the unread bytes unchanged but moves them to offset 0, sets readCursor to 0 and writeCursor to the unread count, and keeps the capacity |
| BufferedTransport.RollbackPosition | lib/thrift/transport.js:203-205 | rollback only sets readCursor to 0, so every byte since the last commit is unread again; buffer and writeCursor are untouched |
| BufferedTransport.CommittedGrowth | lib/thrift/transport.js:182-186 | after a commit, a chunk grows the buffer no further than the larger of its capacity and the backlog plus the chunk |
| BufferedTransport.Flush | lib/thrift/transport.js:285-295 | with nothing pending, flush changes nothing and sends nothing; otherwise the pending bytes, at most 512, go to the sink in exactly one call if there is one, and the scratch buffer is emptied |
| BufferedTransport.Write | lib/thrift/transport.js:270-283 | len <= 0 changes nothing; outCount stays within 512; a write that fits sends nothing and appends its len bytes to the pending ones; an overflowing write first flushes exactly the old pending bytes, then keeps its len bytes pending if len < 512, or else sends the whole of buf on its own and keeps nothing; the input side is untouched; with a sink and len omitted, what is sent followed by what is pending equals what was pending followed by buf |
| BufferedTransport.WriteAllConserves | lib/thrift/transport.js:270-295 | with a sink, all deliveries followed by the pending bytes equal the earlier pending bytes followed by every buffer written, in order, including oversized writes that bypass the buffer after an eager flush |
| BufferedReplay.ApplyMatches | lib/thrift/transport.js:212-268 | each read primitive underruns exactly when it needs more than the unread bytes, and otherwise consumes exactly what it needs from readCursor |
| BufferedReplay.RunMatchesRunOn | lib/thrift/transport.js:212-268 | a sequence of reads on the transport returns what the reference returns on the unread bytes, with readCursor moved past the bytes consumed, whether it finishes or underruns |
| BufferedReplay.SameUnreadSameValues | lib/thrift/transport.js:212-268 | two readers with the same unread bytes read the same values and underrun at the same read |
| BufferedReplay.RollbackUndoesRun | lib/thrift/transport.js:203-205 | from a committed position, rolling back after any attempt, finished or underrun, restores the reader exactly, so the same reads return the same values |
| BufferedReplay.AppendAppend | lib/thrift/transport.js:181-188 | receiving two chunks leaves the same reader state as receiving their concatenation |
| BufferedReplay.RetryMatchesSingleShot | lib/thrift/transport.js:178-205 | rolling back after an attempt, receiving the next chunk and rerunning the reads behaves exactly like one run on both chunks received at once |
| BufferedReplay.MoreDataKeepsValues | lib/thrift/transport.js:212-257 | reads without readAll that succeed keep their values after more data arrives |
| BufferedReplay.UnderrunThenLength | lib/thrift/transport.js:238-243 | three bytes of a length prefix underrun readI32; after the fourth byte arrives and the reader is rolled back, readI32 returns 7 |

## Findings

| source | as written | input that shows it | evidently intended | confidence | as-written member | corrected member |
|---|---|---|---|---|---|---|
| lib/thrift/transport.js:39-49 | `residual` is stored when fewer than four bytes remain at a frame boundary. It is prepended to the next chunk but never reset to null, so it is prepended again to every later chunk | frames [], [], [2A] (bytes `00×8 00 00 00 01 2A`) arriving as chunks `[00 00]`, `[00 00 00 00 00 00]`, `[00 00 00 01 2A]`: the source emits [], [], [] and keeps `[00 01 2A]` as residual | clear the residual once it has been prepended, so that any split of a frame stream yields exactly its frames | not executed; high (the model of lines 37-72 produces it directly) | FrameReceiver.StaleResidualCounterexample | FrameReceiver.FixedWireReassembly |

The as-written receiver is `FrameReceiver.Step`/`FrameReceiver.Feed`.
Its reassembly property, `FrameReceiver.FeedMatchesParse`, is stated only
for traces where no residual was ever stored. The corrected receiver is
`FrameReceiver.StepFixed`/`FrameReceiver.FeedFixed`. Its reassembly
property, `FrameReceiver.FeedFixedMatchesParse`, holds for every split,
and the split round trip in `FramedWire` uses it.

## Left out

- lib/thrift/pool.js, the connection pool: it reflects over a client
  prototype at run time and opens network connections. Its only state
  is a LIFO array of clients.
- `open`, `close` and `isOpen` on both transports are stubs, and the
  `console.log` in the receiver is logging. None of them is modelled.
- UTF-8 is a foreign library call and is not modelled. This covers
  `Buffer.byteLength`, string writes and the decoding in `readString`.
  Payloads are byte strings, and `readString` returns the bytes it would
  decode.
- IEEE-754 decoding in `readDouble` is not modelled. It is a cursor
  advance that returns the eight raw bytes.
- Negative lengths passed to `read` or `readString` are not modelled:
  read lengths are natural numbers. `write` takes any integer length and
  treats `len <= 0` as a no-op, as the source does. `write` requires
  `len <= |buf|`, because the source copies only what `buf` holds while
  still counting `len` bytes.
- FramedTransport.ReadByte requires the byte to be in range. The source
  advances the cursor before Node's out-of-range check runs, so that
  error would leave the cursor moved; this is not modelled. For
  `readI16`, `readI32` and `readDouble`, Node's error comes before the
  cursor moves and is modelled as the same failure a short `read` gives.
- FramedTransport.Flush: the failure for a total above 2^31-1 reflects
  Node's range check in `writeInt32BE`. Failure to allocate a huge
  buffer is not modelled.
- FrameReceiver.Feed stops the model at a negative length prefix
  (`Stopped`). What `new Buffer(negative)` does is not modelled, and
  neither is the corrupted receiver state the source would carry on
  with. The frames delivered before that point are kept.
- The size limit on Node buffers is not modelled. A frame whose length
  prefix exceeds it would fail to allocate in the source.
- FrameReceiver.FeedMatchesParse is stated only for traces where no
  residual was ever stored. On other traces a stale residual can be
  prepended again to a later chunk (see Findings).
- BufferedTransport.Write states its conservation clause only with a
  sink and with `len` equal to `|buf|`. Without a sink, flushed and
  bypassing bytes are dropped. With a shorter explicit `len`, the bypass
  at line 276 sends all of `buf`. Both cases are still stated exactly by
  the overflow clauses of the contract.
- BufferedTransport.Flush: in the source, the buffer handed to the sink
  is a view of the scratch buffer, and later writes overwrite it. The
  model treats each delivery as a value. This assumes the sink copies or
  consumes the buffer before it returns. On an eager flush inside
  `write` (transport.js:275), the same call copies the new bytes into
  that scratch buffer as soon as the sink returns (transport.js:279-280), so
  a sink that only queues the buffer would later send overwritten bytes.
- BufferedTransport.Serve models the consumer callback as a total
  function of the reader. Exceptions escaping the callback are not
  modelled. The source's receiver creates its reader without a flush
  callback.

=== FILE: buffered.dfy ===
/** The buffered transport (TBufferedTransport in lib/thrift/transport.js):
    one long-lived reader per connection over a growable input buffer with
    read and write cursors, and a 512-byte output scratch buffer. */
module BufferedTransport {
  import opened Bytes

  const DefaultReadBufferSize: nat := 1024
  const WriteBufferSize: nat := 512

  /** Fresh Node buffer memory. Its contents are unspecified; the model
      fills it with zeros, and no read ever reaches it. */
  function Blank(n: nat): (bs: seq<byte>)
    ensures |bs| == n
  {
    if n == 0 then [] else Blank(n - 1) + [0]
  }

  /** `inBuf` is the whole input buffer (its length is the capacity);
      `pending` is outBuffers[0..outCount), so outCount is |pending|;
      `hasSink` records whether a flush callback was supplied. */
  datatype Buffered = Buffered(inBuf: seq<byte>, readCursor: nat, writeCursor: nat, pending: seq<byte>, hasSink: bool)
  {
    predicate Valid()
    {
      readCursor <= writeCursor <= |inBuf| && |pending| <= WriteBufferSize
    }

    /** The bytes received and not yet read. */
    function Unread(): seq<byte>
      requires Valid()
    {
      inBuf[readCursor..writeCursor]
    }
  }

  function New(hasSink: bool): (t: Buffered)
    ensures t.Valid() && |t.inBuf| == DefaultReadBufferSize
    ensures t.readCursor == 0 && t.writeCursor == 0 && t.Unread() == [] && t.pending == []
  {
    Buffered(Blank(DefaultReadBufferSize), 0, 0, [], hasSink)
  }

  /** The receiver's buffer update for one chunk: the chunk is copied in at
      the write cursor, after growing the buffer to exactly the needed size
      when it does not fit. */
  function Append(t: Buffered, data: seq<byte>): (r: Buffered)
    requires t.Valid()
    ensures r.Valid()
    ensures r.writeCursor == t.writeCursor + |data|
    ensures r.inBuf[..t.writeCursor] == t.inBuf[..t.writeCursor]
    ensures r.inBuf[t.writeCursor..r.writeCursor] == data
    ensures t.writeCursor + |data| > |t.inBuf| ==> |r.inBuf| == t.writeCursor + |data|
    ensures t.writeCursor + |data| <= |t.inBuf| ==> r.inBuf == t.inBuf[..t.writeCursor] + data + t.inBuf[r.writeCursor..]
    ensures r.Unread() == t.Unread() + data
    ensures r.readCursor == t.readCursor && r.pending == t.pending && r.hasSink == t.hasSink
  {
    var wc := t.writeCursor;
    var buf := if wc + |data| > |t.inBuf| then t.inBuf[..wc] + Blank(|data|) else t.inBuf;
    var filled := buf[..wc] + data + buf[wc + |data|..];
    assert filled[t.readCursor..wc + |data|] == t.inBuf[t.readCursor..wc] + data;
    t.(inBuf := filled, writeCursor := wc + |data|)
  }

  /** The receiver on a list of chunks: after each chunk is appended, the
      callback runs once with the shared reader, and whatever it does to
      the reader (`consume`) carries over to the next chunk. The second
      component lists the readers the callback was handed. */
  function Serve(t: Buffered, chunks: seq<seq<byte>>, consume: Buffered -> Buffered): (r: (Buffered, seq<Buffered>))
    requires t.Valid()
    requires forall b: Buffered :: b.Valid() ==> consume(b).Valid()
    ensures r.0.Valid() && |r.1| == |chunks|
    ensures forall i :: 0 <= i < |chunks| ==> r.1[i].Valid()
    ensures |chunks| > 0 ==> r.1[0].Unread() == t.Unread() + chunks[0]
    ensures forall i :: 0 < i < |chunks| ==> r.1[i].Unread() == consume(r.1[i - 1]).Unread() + chunks[i]
    ensures r.0 == if |chunks| == 0 then t else consume(r.1[|chunks| - 1])
    decreases |chunks|
  {
    if |chunks| == 0 then (t, [])
    else
      var seen := Append(t, chunks[0]);
      var rest := Serve(consume(seen), chunks[1..], consume);
      (rest.0, [seen] + rest.1)
  }

  /** The reader handed over for each chunk is the one the callback left
      after the previous chunk, with that chunk appended: one reader is
      shared across all chunks. */
  lemma {:induction false} ServeShares(t: Buffered, chunks: seq<seq<byte>>, consume: Buffered -> Buffered)
    requires t.Valid()
    requires forall b: Buffered :: b.Valid() ==> consume(b).Valid()
    ensures |chunks| > 0 ==> Serve(t, chunks, consume).1[0] == Append(t, chunks[0])
    ensures forall i :: 0 < i < |chunks| ==>
      Serve(t, chunks, consume).1[i] == Append(consume(Serve(t, chunks, consume).1[i - 1]), chunks[i])
    decreases |chunks|
  {
    if |chunks| > 0 {
      var seen := Append(t, chunks[0]);
      var rest := Serve(consume(seen), chunks[1..], consume);
      ServeShares(consume(seen), chunks[1..], consume);
      assert Serve(t, chunks, consume).1 == [seen] + rest.1;
      forall i | 0 < i < |chunks|
        ensures Serve(t, chunks, consume).1[i] == Append(consume(Serve(t, chunks, consume).1[i - 1]), chunks[i])
      {
        assert chunks[1..][i - 1] == chunks[i];
      }
    }
  }

  /** A callback that reads nothing leaves every received byte unread, in
      arrival order. */
  lemma {:induction false} ServeKeepsBytes(t: Buffered, chunks: seq<seq<byte>>)
    requires t.Valid()
    ensures Serve(t, chunks, b => b).0.Unread() == t.Unread() + Flatten(chunks)
    decreases |chunks|
  {
    if |chunks| > 0 {
      ServeKeepsBytes(Append(t, chunks[0]), chunks[1..]);
      FlattenCons(chunks);
    }
  }

  datatype ReadResult<T> = Got(value: T, next: Buffered) | Underrun

  /** ensureAvailable(len): whether a read of `len` bytes may go ahead. */
  predicate Available(t: Buffered, len: nat)
  {
    t.readCursor + len <= t.writeCursor
  }

  /** read(len): the next `len` unread bytes, or InputBufferUnderrunError
      with nothing changed. */
  function Read(t: Buffered, len: nat): (r: ReadResult<seq<byte>>)
    requires t.Valid()
    ensures r.Underrun? <==> len > |t.Unread()|
    ensures r.Got? ==> r.value == t.Unread()[..len]
    ensures r.Got? ==> r.next == t.(readCursor := t.readCursor + len) && r.next.Valid()
    ensures r.Got? ==> r.next.Unread() == t.Unread()[len..]
  {
    if !Available(t, len) then Underrun
    else
      var next := t.(readCursor := t.readCursor + len);
      assert t.Unread()[..len] == t.inBuf[t.readCursor..t.readCursor + len];
      assert next.Unread() == t.Unread()[len..];
      Got(t.inBuf[t.readCursor..t.readCursor + len], next)
  }

  /** readByte: one signed byte. */
  function ReadByte(t: Buffered): (r: ReadResult<int>)
    requires t.Valid()
    ensures r.Underrun? <==> Read(t, 1).Underrun?
    ensures r.Got? ==> r.value == DecodeI8(Read(t, 1).value[0]) && r.next == Read(t, 1).next
  {
    if !Available(t, 1) then Underrun
    else Got(DecodeI8(t.inBuf[t.readCursor]), t.(readCursor := t.readCursor + 1))
  }

  /** readI16: two bytes, big-endian two's complement. */
  function ReadI16(t: Buffered): (r: ReadResult<int>)
    requires t.Valid()
    ensures r.Underrun? <==> Read(t, 2).Underrun?
    ensures r.Got? ==> r.value == DecodeI16(Read(t, 2).value) && r.next == Read(t, 2).next
  {
    if !Available(t, 2) then Underrun
    else Got(DecodeI16(t.inBuf[t.readCursor..t.readCursor + 2]), t.(readCursor := t.readCursor + 2))
  }

  /** readI32: four bytes, big-endian two's complement. */
  function ReadI32(t: Buffered): (r: ReadResult<int>)
    requires t.Valid()
    ensures r.Underrun? <==> Read(t, 4).Underrun?
    ensures r.Got? ==> r.value == DecodeI32(Read(t, 4).value) && r.next == Read(t, 4).next
  {
    if !Available(t, 4) then Underrun
    else Got(DecodeI32(t.inBuf[t.readCursor..t.readCursor + 4]), t.(readCursor := t.readCursor + 4))
  }

  /** readDouble, as the eight raw bytes it decodes. */
  function ReadDouble(t: Buffered): (r: ReadResult<seq<byte>>)
    requires t.Valid()
    ensures r == Read(t, 8)
  {
    if !Available(t, 8) then Underrun
    else Got(t.inBuf[t.readCursor..t.readCursor + 8], t.(readCursor := t.readCursor + 8))
  }

  /** readString(len), as the bytes it decodes. */
  function ReadString(t: Buffered, len: nat): (r: ReadResult<seq<byte>>)
    requires t.Valid()
    ensures r == Read(t, len)
  {
    if !Available(t, len) then Underrun
    else Got(t.inBuf[t.readCursor..t.readCursor + len], t.(readCursor := t.readCursor + len))
  }

  /** readAll: every unread byte, or an underrun when there is none. */
  function ReadAll(t: Buffered): (r: ReadResult<seq<byte>>)
    requires t.Valid()
    ensures r.Underrun? <==> t.Unread() == []
    ensures r.Got? ==> r == Read(t, |t.Unread()|) && r.next.Unread() == []
  {
    if t.readCursor >= t.writeCursor then Underrun
    else Got(t.inBuf[t.readCursor..t.writeCursor], t.(readCursor := t.writeCursor))
  }

  /** commitPosition: the unread bytes move to the front of the buffer and
      the cursors are rebased; the capacity stays the same. */
  function CommitPosition(t: Buffered): (r: Buffered)
    requires t.Valid()
    ensures r.Valid() && r.readCursor == 0 && r.writeCursor == |t.Unread()|
    ensures r.Unread() == t.Unread()
    ensures |r.inBuf| == |t.inBuf| && r.pending == t.pending && r.hasSink == t.hasSink
  {
    var unread := t.writeCursor - t.readCursor;
    var buf := if unread > 0 then t.inBuf[t.readCursor..t.writeCursor] + t.inBuf[unread..] else t.inBuf;
    t.(inBuf := buf, readCursor := 0, writeCursor := unread)
  }

  /** rollbackPosition: the read cursor goes back to the committed start. */
  function RollbackPosition(t: Buffered): (r: Buffered)
    requires t.Valid()
    ensures r.Valid() && r.readCursor == 0
    ensures r.Unread() == t.inBuf[..t.writeCursor] && |r.Unread()| >= |t.Unread()|
    ensures r.inBuf == t.inBuf && r.writeCursor == t.writeCursor && r.pending == t.pending && r.hasSink == t.hasSink
  {
    t.(readCursor := 0)
  }

  /** Appending to a committed buffer grows it only as far as the unread
      bytes and the chunk need: sustained commit cycles keep the buffer
      bounded by the largest backlog. */
  lemma CommittedGrowth(t: Buffered, data: seq<byte>)
    requires t.Valid() && t.readCursor == 0
    ensures |Append(t, data).inBuf| <= if |t.inBuf| >= |t.Unread()| + |data| then |t.inBuf| else |t.Unread()| + |data|
  {
  }

  /** What a write or flush produced: the new state and the buffers handed
      to the sink, in order. */
  datatype Output = Output(next: Buffered, sent: seq<seq<byte>>)

  /** flush: nothing at all with fewer than one pending byte; otherwise the
      pending bytes go to the sink (if any) and are dropped. */
  function Flush(t: Buffered): (r: Output)
    requires t.Valid()
    ensures r.next.Valid() && r.next.pending == []
    ensures |t.pending| == 0 ==> r == Output(t, [])
    ensures r.next == t.(pending := [])
    ensures t.hasSink ==> Flatten(r.sent) == t.pending
    ensures !t.hasSink ==> r.sent == []
    ensures t.hasSink && |t.pending| > 0 ==> |r.sent| == 1
    ensures forall i :: 0 <= i < |r.sent| ==> 0 < |r.sent[i]| <= WriteBufferSize
  {
    if |t.pending| < 1 then Output(t, [])
    else
      FlattenSingle(t.pending);
      Output(t.(pending := []), if t.hasSink then [t.pending] else [])
  }

  /** write(buf, len) with `len` bytes of `buf` (an omitted `len` is
      |buf|). A write that would overflow the scratch buffer flushes it
      first; a write of 512 bytes or more then goes straight to the sink,
      passing the whole of `buf`. */
  function Write(t: Buffered, buf: seq<byte>, len: int): (r: Output)
    requires t.Valid()
    requires len <= |buf|
    ensures r.next.Valid()
    ensures len <= 0 ==> r == Output(t, [])
    ensures |t.pending| + len <= WriteBufferSize ==> r.sent == []
    ensures r.next.inBuf == t.inBuf && r.next.readCursor == t.readCursor && r.next.writeCursor == t.writeCursor
    ensures r.next.hasSink == t.hasSink
    ensures t.hasSink && len == |buf| ==> Flatten(r.sent) + r.next.pending == t.pending + buf
    ensures 0 < len && |t.pending| + len <= WriteBufferSize ==> r.next.pending == t.pending + buf[..len]
    ensures 0 < len < WriteBufferSize && |t.pending| + len > WriteBufferSize ==>
      r.next.pending == buf[..len] && r.sent == (if t.hasSink then [t.pending] else [])
    ensures len >= WriteBufferSize && |t.pending| + len > WriteBufferSize ==>
      r.next.pending == [] && r.sent == (if t.hasSink then (if |t.pending| > 0 then [t.pending] else []) + [buf] else [])
  {
    if len <= 0 then Output(t, [])
    else if |t.pending| + len > WriteBufferSize then
      var flushed := Flush(t);
      if len >= WriteBufferSize then
        var bypass := if t.hasSink then [buf] else [];
        FlattenAppend(flushed.sent, bypass);
        FlattenSingle(buf);
        Output(flushed.next, flushed.sent + bypass)
      else
        assert buf[..len] == buf || len < |buf|;
        Output(flushed.next.(pending := buf[..len]), flushed.sent)
    else
      Output(t.(pending := t.pending + buf[..len]), [])
  }

  /** write(buf) for each buffer in order, collecting what the sink got. */
  function WriteAll(t: Buffered, bufs: seq<seq<byte>>): (r: Output)
    requires t.Valid()
    ensures r.next.Valid() && r.next.hasSink == t.hasSink
    ensures r.next.inBuf == t.inBuf && r.next.readCursor == t.readCursor && r.next.writeCursor == t.writeCursor
    decreases |bufs|
  {
    if |bufs| == 0 then Output(t, [])
    else
      var first := Write(t, bufs[0], |bufs[0]|);
      var rest := WriteAll(first.next, bufs[1..]);
      Output(rest.next, first.sent + rest.sent)
  }

  /** With a sink, nothing written is lost, duplicated or reordered: what
      the sink received followed by what is still pending is exactly what
      was pending before followed by every buffer written. */
  lemma {:induction false} WriteAllConserves(t: Buffered, bufs: seq<seq<byte>>)
    requires t.Valid() && t.hasSink
    ensures Flatten(WriteAll(t, bufs).sent) + WriteAll(t, bufs).next.pending == t.pending + Flatten(bufs)
    decreases |bufs|
  {
    if |bufs| > 0 {
      var first := Write(t, bufs[0], |bufs[0]|);
      var rest := WriteAll(first.next, bufs[1..]);
      assert WriteAll(t, bufs) == Output(rest.next, first.sent + rest.sent);
      WriteAllConserves(first.next, bufs[1..]);
      FlattenCons(bufs);
      ConserveChain(first.sent, rest.sent, t.pending, first.next.pending, rest.next.pending, bufs[0], Flatten(bufs[1..]));
    }
  }

  lemma ConserveChain(s1: seq<seq<byte>>, s2: seq<seq<byte>>, p0: seq<byte>, p1: seq<byte>, p2: seq<byte>, b: seq<byte>, more: seq<byte>)
    requires Flatten(s1) + p1 == p0 + b
    requires Flatten(s2) + p2 == p1 + more
    ensures Flatten(s1 + s2) + p2 == p0 + (b + more)
  {
    FlattenAppend(s1, s2);
    calc {
      Flatten(s1 + s2) + p2;
      Flatten(s1) + Flatten(s2) + p2;
      Flatten(s1) + (p1 + more);
      (Flatten(s1) + p1) + more;
      p0 + b + more;
    }
  }
}

=== FILE: buffered_replay.dfy ===
/** Parsing against the buffered transport: the upper layer issues a
    sequence of reads, and on InputBufferUnderrunError rolls back and waits
    for more data. This module states what such a sequence returns in terms
    of the unread bytes alone, and why retrying after a rollback is safe. */
module BufferedReplay {
  import opened Bytes
  import opened BufferedTransport

  /** The read primitives of the buffered transport. */
  datatype Op = ReadBytesOp(n: nat) | ReadByteOp | ReadI16Op | ReadI32Op | ReadDoubleOp | ReadStringOp(n: nat) | ReadAllOp

  datatype Value = Raw(bytes: seq<byte>) | Int(i: int)

  function AsRaw(r: ReadResult<seq<byte>>): ReadResult<Value>
  {
    match r
    case Underrun => Underrun
    case Got(v, t) => Got(Raw(v), t)
  }

  function AsInt(r: ReadResult<int>): ReadResult<Value>
  {
    match r
    case Underrun => Underrun
    case Got(v, t) => Got(Int(v), t)
  }

  /** One read primitive on the transport. */
  function Apply(t: Buffered, op: Op): ReadResult<Value>
    requires t.Valid()
  {
    match op
    case ReadBytesOp(n) => AsRaw(Read(t, n))
    case ReadByteOp => AsInt(ReadByte(t))
    case ReadI16Op => AsInt(ReadI16(t))
    case ReadI32Op => AsInt(ReadI32(t))
    case ReadDoubleOp => AsRaw(ReadDouble(t))
    case ReadStringOp(n) => AsRaw(ReadString(t, n))
    case ReadAllOp => AsRaw(ReadAll(t))
  }

  /** The bytes a read needs out of the unread bytes `avail` (readAll needs
      at least one and takes them all). */
  function Need(op: Op, avail: seq<byte>): nat
  {
    match op
    case ReadBytesOp(n) => n
    case ReadByteOp => 1
    case ReadI16Op => 2
    case ReadI32Op => 4
    case ReadDoubleOp => 8
    case ReadStringOp(n) => n
    case ReadAllOp => if |avail| == 0 then 1 else |avail|
  }

  /** The value a read makes of the bytes it consumed. */
  function Decode(op: Op, bytes: seq<byte>): Value
    requires |bytes| == Need(op, bytes) || (op.ReadAllOp? && |bytes| > 0)
  {
    match op
    case ReadByteOp => Int(DecodeI8(bytes[0]))
    case ReadI16Op => Int(DecodeI16(bytes))
    case ReadI32Op => Int(DecodeI32(bytes))
    case _ => Raw(bytes)
  }

  /** Reference: the reads run over a plain byte string. `used` counts the
      bytes consumed, up to the read that came up short if one did. */
  datatype Replay = Ran(values: seq<Value>, used: nat) | Short(values: seq<Value>, used: nat)

  function RunOn(s: seq<byte>, ops: seq<Op>): (r: Replay)
    ensures r.used <= |s|
    decreases |ops|
  {
    if |ops| == 0 then Ran([], 0)
    else
      var k := Need(ops[0], s);
      if k > |s| then Short([], 0)
      else
        var v := Decode(ops[0], s[..k]);
        match RunOn(s[k..], ops[1..])
        case Ran(vs, used) => Ran([v] + vs, k + used)
        case Short(vs, used) => Short([v] + vs, k + used)
  }

  /** The reads run on the transport: every value read, with the final
      state, or the values read before an underrun, with the state at the
      moment it was raised. */
  datatype Outcome = Finished(values: seq<Value>, state: Buffered) | Underran(values: seq<Value>, state: Buffered)

  function Run(t: Buffered, ops: seq<Op>): (r: Outcome)
    requires t.Valid()
    ensures r.state.Valid()
    decreases |ops|
  {
    if |ops| == 0 then Finished([], t)
    else
      match Apply(t, ops[0])
      case Underrun => Underran([], t)
      case Got(v, t1) =>
        ApplyMatches(t, ops[0]);
        match Run(t1, ops[1..])
        case Finished(vs, t2) => Finished([v] + vs, t2)
        case Underran(vs, t2) => Underran([v] + vs, t2)
  }

  /** What the transport should do given what the reference does on its
      unread bytes: the same values, with the read cursor moved past the
      bytes consumed. */
  function Expected(t: Buffered, r: Replay): Outcome
    requires t.Valid() && r.used <= |t.Unread()|
  {
    match r
    case Ran(vs, used) => Finished(vs, t.(readCursor := t.readCursor + used))
    case Short(vs, used) => Underran(vs, t.(readCursor := t.readCursor + used))
  }

  /** Each read primitive underruns exactly when it needs more than the
      unread bytes, and otherwise consumes exactly what it needs from the
      read cursor. */
  lemma ApplyMatches(t: Buffered, op: Op)
    requires t.Valid()
    ensures Apply(t, op).Underrun? <==> Need(op, t.Unread()) > |t.Unread()|
    ensures Apply(t, op).Got? ==>
      && Apply(t, op).value == Decode(op, t.Unread()[..Need(op, t.Unread())])
      && Apply(t, op).next == t.(readCursor := t.readCursor + Need(op, t.Unread()))
      && Apply(t, op).next.Valid()
  {
    var u := t.Unread();
    if op.ReadAllOp? && |u| > 0 {
      assert u[..|u|] == u;
    }
  }

  /** The transport's reads do what the reference does on the unread
      bytes, both when they all succeed and when one underruns. */
  lemma {:induction false} RunMatchesRunOn(t: Buffered, ops: seq<Op>)
    requires t.Valid()
    ensures Run(t, ops) == Expected(t, RunOn(t.Unread(), ops))
    decreases |ops|
  {
    if |ops| > 0 {
      var u := t.Unread();
      var k := Need(ops[0], u);
      ApplyMatches(t, ops[0]);
      if k <= |u| {
        var t1 := t.(readCursor := t.readCursor + k);
        assert t1.Unread() == u[k..];
        RunMatchesRunOn(t1, ops[1..]);
        RunStep(t, ops, Decode(ops[0], u[..k]), t1);
        RunOnStep(u, ops);
      }
    }
  }

  lemma RunStep(t: Buffered, ops: seq<Op>, v: Value, t1: Buffered)
    requires t.Valid() && |ops| > 0 && Apply(t, ops[0]) == Got(v, t1) && t1.Valid()
    ensures Run(t, ops) == match Run(t1, ops[1..])
      case Finished(vs, t2) => Finished([v] + vs, t2)
      case Underran(vs, t2) => Underran([v] + vs, t2)
  {
  }

  lemma RunOnStep(s: seq<byte>, ops: seq<Op>)
    requires |ops| > 0 && Need(ops[0], s) <= |s|
    ensures RunOn(s, ops) == match RunOn(s[Need(ops[0], s)..], ops[1..])
      case Ran(vs, used) => Ran([Decode(ops[0], s[..Need(ops[0], s)])] + vs, Need(ops[0], s) + used)
      case Short(vs, used) => Short([Decode(ops[0], s[..Need(ops[0], s)])] + vs, Need(ops[0], s) + used)
  {
  }

  /** Two readers holding the same unread bytes read the same values and
      underrun at the same read. */
  lemma SameUnreadSameValues(t: Buffered, u: Buffered, ops: seq<Op>)
    requires t.Valid() && u.Valid() && t.Unread() == u.Unread()
    ensures Run(t, ops).values == Run(u, ops).values
    ensures Run(t, ops).Finished? <==> Run(u, ops).Finished?
  {
    RunMatchesRunOn(t, ops);
    RunMatchesRunOn(u, ops);
  }

  /** Reads only move the read cursor, so rolling back after any attempt
      from a committed position restores the reader exactly. */
  lemma RollbackUndoesRun(t: Buffered, ops: seq<Op>)
    requires t.Valid() && t.readCursor == 0
    ensures RollbackPosition(Run(t, ops).state) == t
  {
    RunMatchesRunOn(t, ops);
  }

  predicate FixedWidth(ops: seq<Op>)
  {
    forall i :: 0 <= i < |ops| ==> !ops[i].ReadAllOp?
  }

  /** Without readAll, reads that succeed on some bytes succeed with the
      same values when more bytes follow. */
  lemma {:induction false} RunOnExtends(s: seq<byte>, more: seq<byte>, ops: seq<Op>)
    requires FixedWidth(ops) && RunOn(s, ops).Ran?
    ensures RunOn(s + more, ops) == RunOn(s, ops)
    decreases |ops|
  {
    if |ops| > 0 {
      var k := Need(ops[0], s);
      assert Need(ops[0], s + more) == k;
      assert (s + more)[..k] == s[..k];
      assert (s + more)[k..] == s[k..] + more;
      RunOnExtends(s[k..], more, ops[1..]);
    }
  }

  /** The receiver does not care how the stream was split: appending two
      chunks gives the very state appending their concatenation gives. */
  lemma AppendAppend(t: Buffered, a: seq<byte>, b: seq<byte>)
    requires t.Valid()
    ensures Append(Append(t, a), b) == Append(t, a + b)
  {
    var mid := Append(t, a);
    var two := Append(mid, b);
    var one := Append(t, a + b);
    var wc := t.writeCursor + |a| + |b|;
    assert two.inBuf[..wc] == one.inBuf[..wc] by {
      assert two.inBuf[..wc] == mid.inBuf[..mid.writeCursor] + b;
      assert mid.inBuf[..mid.writeCursor] == t.inBuf[..t.writeCursor] + a;
      assert one.inBuf[..wc] == t.inBuf[..t.writeCursor] + (a + b);
    }
    if wc <= |t.inBuf| {
      assert two.inBuf[wc..] == one.inBuf[wc..] by {
        assert mid.inBuf[mid.writeCursor..] == t.inBuf[mid.writeCursor..];
      }
      assert two.inBuf == two.inBuf[..wc] + two.inBuf[wc..];
      assert one.inBuf == one.inBuf[..wc] + one.inBuf[wc..];
    } else {
      assert |two.inBuf| == wc == |one.inBuf|;
      assert two.inBuf == two.inBuf[..wc] && one.inBuf == one.inBuf[..wc];
    }
  }

  /** Retry after an underrun: rolling back, receiving the next chunk and
      running the same reads again behaves exactly as if both chunks had
      arrived at once and the reads had run a single time. */
  lemma RetryMatchesSingleShot(t: Buffered, first: seq<byte>, second: seq<byte>, ops: seq<Op>)
    requires t.Valid() && t.readCursor == 0
    ensures Run(Append(RollbackPosition(Run(Append(t, first), ops).state), second), ops)
         == Run(Append(t, first + second), ops)
  {
    RollbackUndoesRun(Append(t, first), ops);
    AppendAppend(t, first, second);
  }

  /** A parse that underran keeps its values once enough bytes arrive:
      reads without readAll that succeed on the backlog succeed with the
      same values after any further chunk. */
  lemma MoreDataKeepsValues(t: Buffered, more: seq<byte>, ops: seq<Op>)
    requires t.Valid() && FixedWidth(ops) && Run(t, ops).Finished?
    ensures Run(Append(t, more), ops).Finished?
    ensures Run(Append(t, more), ops).values == Run(t, ops).values
  {
    RunMatchesRunOn(t, ops);
    RunMatchesRunOn(Append(t, more), ops);
    RunOnExtends(t.Unread(), more, ops);
  }

  /** Three bytes of a four-byte length underrun; after the fourth byte
      arrives and the reader is rolled back, the same read returns 7. */
  lemma UnderrunThenLength()
    ensures ReadI32(Append(New(false), [0, 0, 0])).Underrun?
    ensures ReadI32(Append(RollbackPosition(Append(New(false), [0, 0, 0])), [7])) == 
      Got(7, Append(Append(New(false), [0, 0, 0]), [7]).(readCursor := 4))
  {
    var t1 := Append(New(false), [0, 0, 0]);
    var t2 := Append(RollbackPosition(t1), [7]);
    assert RollbackPosition(t1) == t1;
    assert t2.Unread() == [0, 0, 0, 7];
    BigEndian4([0, 0, 0, 7]);
    assert DecodeI32([0, 0, 0, 7]) == 7;
  }
}

=== FILE: bytes.dfy ===
/** Byte sequences and the big-endian two's-complement integer codecs that
    the transports rely on (Node's Buffer readInt8, readInt16BE,
    readInt32BE and writeInt32BE). */
module Bytes {

  /** An octet; a newtype over int keeps the codec proofs in linear arithmetic. */
  newtype byte = b: int | 0 <= b < 256

  const MaxI32: int := 0x7fff_ffff
  const MinI32: int := -0x8000_0000
  const TwoTo32: int := 0x1_0000_0000

  predicate IsI32(v: int) { MinI32 <= v <= MaxI32 }

  /** Concatenation of a list of byte strings, in order. */
  function Flatten(parts: seq<seq<byte>>): (r: seq<byte>)
  {
    if |parts| == 0 then [] else Flatten(parts[..|parts| - 1]) + parts[|parts| - 1]
  }

  lemma {:induction false} FlattenAppend(parts: seq<seq<byte>>, more: seq<seq<byte>>)
    ensures Flatten(parts + more) == Flatten(parts) + Flatten(more)
    decreases |more|
  {
    if |more| == 0 {
      assert parts + more == parts;
    } else {
      var init := more[..|more| - 1];
      assert (parts + more)[..|parts + more| - 1] == parts + init;
      FlattenAppend(parts, init);
    }
  }

  lemma FlattenSingle(p: seq<byte>)
    ensures Flatten([p]) == p
  {
    assert [p][..0] == [];
  }

  lemma FlattenCons(parts: seq<seq<byte>>)
    requires |parts| > 0
    ensures Flatten(parts) == parts[0] + Flatten(parts[1..])
  {
    assert [parts[0]] + parts[1..] == parts;
    FlattenAppend([parts[0]], parts[1..]);
    FlattenSingle(parts[0]);
  }

  lemma SplitThree(s: seq<byte>, i: nat, j: nat)
    requires i <= j <= |s|
    ensures s == s[..i] + s[i..j] + s[j..]
  {
  }

  /** A byte read as a signed 8-bit integer (readInt8). */
  function DecodeI8(b: byte): (v: int)
    ensures -128 <= v < 128
    ensures v >= 0 <==> b < 0x80
    ensures (v + 256) % 256 == b as int
  {
    if b < 0x80 then b as int else b as int - 256
  }

  /** Two bytes read as a big-endian signed 16-bit integer (readInt16BE). */
  function DecodeI16(bs: seq<byte>): (v: int)
    requires |bs| == 2
    ensures -0x8000 <= v < 0x8000
    ensures v >= 0 <==> bs[0] < 0x80
    ensures (v + 0x1_0000) % 0x1_0000 == bs[0] as int * 256 + bs[1] as int
  {
    var u := bs[0] as int * 256 + bs[1] as int;
    if u < 0x8000 then u else u - 0x1_0000
  }

  /** 256 to the power n: one more than the largest n-byte number. */
  function Radix(n: nat): nat
  {
    if n == 0 then 1 else Radix(n - 1) * 256
  }

  /** Bytes as an unsigned big-endian number. The top bit of the first
      byte is set exactly when the number reaches half the range. */
  function BigEndian(bs: seq<byte>): (u: nat)
    ensures u < Radix(|bs|)
    ensures |bs| > 0 ==> (bs[0] < 0x80 <==> 2 * u < Radix(|bs|))
  {
    if |bs| == 0 then 0 else BigEndian(bs[..|bs| - 1]) * 256 + bs[|bs| - 1] as int
  }

  /** Three bytes, most significant first. */
  lemma BigEndian3(bs: seq<byte>)
    requires |bs| == 3
    ensures BigEndian(bs) == (bs[0] as int * 256 + bs[1] as int) * 256 + bs[2] as int
  {
    assert bs[..2][..1] == bs[..1] && bs[..1][..0] == [];
    assert BigEndian(bs) == BigEndian(bs[..2]) * 256 + bs[2] as int;
    assert BigEndian(bs[..2]) == BigEndian(bs[..1]) * 256 + bs[1] as int;
    assert BigEndian(bs[..1]) == bs[0] as int;
  }

  /** Four bytes, most significant first. */
  lemma BigEndian4(bs: seq<byte>)
    requires |bs| == 4
    ensures BigEndian(bs) == ((bs[0] as int * 256 + bs[1] as int) * 256 + bs[2] as int) * 256 + bs[3] as int
  {
    BigEndian3(bs[..3]);
    assert BigEndian(bs) == BigEndian(bs[..3]) * 256 + bs[3] as int;
  }

  /** Four bytes read as a big-endian signed 32-bit integer (readInt32BE). */
  function DecodeI32(bs: seq<byte>): (v: int)
    requires |bs| == 4
    ensures IsI32(v)
    ensures v >= 0 <==> bs[0] < 0x80
    ensures (v + TwoTo32) % TwoTo32 == BigEndian(bs)
  {
    assert Radix(4) == TwoTo32;
    if bs[0] < 0x80 then BigEndian(bs) else BigEndian(bs) - TwoTo32
  }

  /** The low `width` bytes of `u`, most significant first. */
  function Digits(u: nat, width: nat): (bs: seq<byte>)
    ensures |bs| == width
  {
    if width == 0 then [] else Digits(u / 256, width - 1) + [(u % 256) as byte]
  }

  /** Four digits base 256 read back as the number they came from. */
  lemma DigitsBigEndian(u: nat)
    requires u < TwoTo32
    ensures BigEndian(Digits(u, 4)) == u
  {
    var bs := Digits(u, 4);
    var u1 := u / 256;
    var u2 := u1 / 256;
    var u3 := u2 / 256;
    assert bs == Digits(u1, 3) + [(u % 256) as byte];
    assert Digits(u1, 3) == Digits(u2, 2) + [(u1 % 256) as byte];
    assert Digits(u2, 2) == Digits(u3, 1) + [(u2 % 256) as byte];
    assert Digits(u3, 1) == [(u3 % 256) as byte];
    assert u == u1 * 256 + u % 256;
    assert u1 == u2 * 256 + u1 % 256;
    assert u2 == u3 * 256 + u2 % 256;
    assert u3 < 256;
    BigEndian4(bs);
  }

  /** A signed 32-bit integer written as four big-endian bytes
      (writeInt32BE). */
  function EncodeI32(v: int): (bs: seq<byte>)
    requires IsI32(v)
    ensures |bs| == 4
    ensures DecodeI32(bs) == v
  {
    DigitsBigEndian(if v < 0 then v + TwoTo32 else v);
    Digits(if v < 0 then v + TwoTo32 else v, 4)
  }

  lemma ByteSplit(a: nat, b: nat)
    requires b < 256
    ensures (a * 256 + b) / 256 == a
    ensures (a * 256 + b) % 256 == b
  {
  }

  /** Decoding then re-encoding four bytes gives the same four bytes: every
      32-bit pattern is the encoding of exactly one value. */
  lemma EncodeDecodeI32(bs: seq<byte>)
    requires |bs| == 4
    ensures EncodeI32(DecodeI32(bs)) == bs
  {
    var hi := bs[0] as int * 256 + bs[1] as int;
    var mid := hi * 256 + bs[2] as int;
    var u := mid * 256 + bs[3] as int;
    BigEndian4(bs);
    ByteSplit(mid, bs[3] as int);
    ByteSplit(hi, bs[2] as int);
    ByteSplit(bs[0] as int, bs[1] as int);
    assert Digits(u, 4) == Digits(mid, 3) + [bs[3]];
    assert Digits(mid, 3) == Digits(hi, 2) + [bs[2]];
    assert Digits(hi, 2) == Digits(bs[0] as int, 1) + [bs[1]];
    assert Digits(bs[0] as int, 1) == [bs[0]];
  }
}

=== FILE: frame_receiver.dfy ===
/** The frame assembler (TFramedTransport.receiver in
    lib/thrift/transport.js): a per-connection state machine that turns
    arbitrarily split chunks into complete frame payloads.

    The state is {frameLeft, framePos, frame, residual}. `frame` is kept
    as the bytes received so far, so framePos is |frame|; `residual` is the
    empty sequence where the source holds null (the source only ever stores
    one to three bytes there). */
module FrameReceiver {
  import opened Bytes

  /** A frame being filled: `frameLeft` bytes still missing after `frame`. */
  datatype Assembly = Assembly(frameLeft: nat, frame: seq<byte>)
  {
    /** The announced length of a frame in progress came from a signed
        32-bit prefix. */
    predicate Valid() { frameLeft > 0 ==> |frame| + frameLeft <= MaxI32 }
  }

  const Idle := Assembly(0, [])

  datatype Receiver = Receiver(asm: Assembly, residual: seq<byte>)
  {
    predicate Valid() { asm.Valid() && |residual| < 4 }
  }

  const Initial := Receiver(Idle, [])

  /** What one pass of the chunk loop produced: the state, the payloads
      handed to the callback in order, and the bytes stashed as residual
      (empty when the loop did not stash any). What the source does after
      a negative length prefix depends on Node's Buffer and is not
      modelled; the model stops there, keeping the frames already
      delivered. */
  datatype Drained = Drained(asm: Assembly, frames: seq<seq<byte>>, stash: seq<byte>) | Faulted(frames: seq<seq<byte>>)

  function EmitFirst(payload: seq<byte>, d: Drained): (r: Drained)
  {
    match d
    case Drained(a, fs, st) => Drained(a, [payload] + fs, st)
    case Faulted(fs) => Faulted([payload] + fs)
  }

  /** The `while (data.length)` loop. Each pass reads a length prefix when
      no frame is in progress (fewer than four bytes are stashed instead),
      then copies as much of the frame as the data holds, emitting the
      frame once it is full; a zero-length frame is emitted at once. */
  function Drain(asm: Assembly, data: seq<byte>): (r: Drained)
    requires asm.Valid()
    ensures r.Drained? ==> r.asm.Valid()
    ensures r.Drained? && |r.stash| > 0 ==> r.asm.frameLeft == 0 && |r.stash| < 4
    decreases |data|
  {
    if |data| == 0 then Drained(asm, [], [])
    else if asm.frameLeft == 0 && |data| < 4 then Drained(asm, [], data)
    else
      var n := if asm.frameLeft == 0 then DecodeI32(data[..4]) else 0;
      if asm.frameLeft == 0 && n < 0 then Faulted([])
      else
        var cur := if asm.frameLeft == 0 then Assembly(n, []) else asm;
        var avail := if asm.frameLeft == 0 then data[4..] else data;
        if |avail| >= cur.frameLeft then
          EmitFirst(cur.frame + avail[..cur.frameLeft], Drain(Idle, avail[cur.frameLeft..]))
        else
          Drained(Assembly(cur.frameLeft - |avail|, cur.frame + avail), [], [])
  }

  /** The bytes of one frame on the wire: the signed big-endian length,
      then the payload. */
  function Frame(payload: seq<byte>): (w: seq<byte>)
    requires |payload| <= MaxI32
    ensures |w| == 4 + |payload| && w[4..] == payload
  {
    EncodeI32(|payload|) + payload
  }

  predicate Framable(payloads: seq<seq<byte>>)
  {
    forall i :: 0 <= i < |payloads| ==> |payloads[i]| <= MaxI32
  }

  /** A stream of frames, in order. */
  function Wire(payloads: seq<seq<byte>>): (w: seq<byte>)
    requires Framable(payloads)
  {
    if |payloads| == 0 then [] else Frame(payloads[0]) + Wire(payloads[1..])
  }

  /** The reference reading of a byte stream: the complete frames it
      starts with, and the incomplete rest; or the frames before a
      negative length prefix. */
  datatype Parsed = Parsed(frames: seq<seq<byte>>, rest: seq<byte>) | Malformed(frames: seq<seq<byte>>)

  function Before(fs: seq<seq<byte>>, p: Parsed): Parsed
  {
    match p
    case Parsed(f, rest) => Parsed(fs + f, rest)
    case Malformed(f) => Malformed(fs + f)
  }

  function Parse(s: seq<byte>): Parsed
    decreases |s|
  {
    if |s| < 4 then Parsed([], s)
    else
      var n := DecodeI32(s[..4]);
      if n < 0 then Malformed([])
      else if |s| - 4 < n then Parsed([], s)
      else Before([s[4..4 + n]], Parse(s[4 + n..]))
  }

  /** The reference reading loses nothing: a stream is its complete frames
      put back on the wire followed by the rest, and the rest does not
      hold a complete frame. */
  lemma {:induction false} ParseReassembles(s: seq<byte>)
    ensures Framable(Parse(s).frames)
    ensures Parse(s).Parsed? ==> s == Wire(Parse(s).frames) + Parse(s).rest
    ensures Parse(s).Parsed? && |Parse(s).rest| >= 4 ==> DecodeI32(Parse(s).rest[..4]) > |Parse(s).rest| - 4
    decreases |s|
  {
    if |s| >= 4 {
      var n := DecodeI32(s[..4]);
      if n >= 0 && |s| - 4 >= n {
        var tail := Parse(s[4 + n..]);
        ParseComplete(s);
        ParseReassembles(s[4 + n..]);
        if tail.Parsed? {
          FrameThenWire(s, tail.frames, tail.rest);
        }
      }
    }
  }

  /** A stream whose first frame is complete is that frame followed by the
      rest of the stream. */
  lemma FrameThenWire(s: seq<byte>, fs: seq<seq<byte>>, rest: seq<byte>)
    requires |s| >= 4 && 0 <= DecodeI32(s[..4]) <= |s| - 4
    requires Framable(fs)
    requires s[4 + DecodeI32(s[..4])..] == Wire(fs) + rest
    ensures Framable([s[4..4 + DecodeI32(s[..4])]] + fs)
    ensures s == Wire([s[4..4 + DecodeI32(s[..4])]] + fs) + rest
  {
    var n := DecodeI32(s[..4]);
    var p := s[4..4 + n];
    var all := [p] + fs;
    assert all[1..] == fs;
    assert Wire(all) == Frame(p) + Wire(fs);
    HeaderFrame(s);
  }

  /** A stream whose first frame is complete starts with that frame. */
  lemma HeaderFrame(s: seq<byte>)
    requires |s| >= 4 && 0 <= DecodeI32(s[..4]) <= |s| - 4
    ensures s == Frame(s[4..4 + DecodeI32(s[..4])]) + s[4 + DecodeI32(s[..4])..]
  {
    EncodeDecodeI32(s[..4]);
    SplitThree(s, 4, 4 + DecodeI32(s[..4]));
  }

  /** A stream of whole frames reads back as exactly those frames, with
      nothing left over. */
  lemma {:induction false} ParseWire(payloads: seq<seq<byte>>)
    requires Framable(payloads)
    ensures Parse(Wire(payloads)) == Parsed(payloads, [])
    decreases |payloads|
  {
    if |payloads| > 0 {
      var p := payloads[0];
      var s := Wire(payloads);
      assert s[..4] == EncodeI32(|p|);
      assert s[4..4 + |p|] == p;
      assert s[4 + |p|..] == Wire(payloads[1..]);
      ParseWire(payloads[1..]);
      assert [p] + payloads[1..] == payloads;
    }
  }

  /** More bytes after a stream only extend what follows its last complete
      frame. */
  lemma {:induction false} ParseAppend(x: seq<byte>, c: seq<byte>)
    ensures Parse(x).Parsed? ==> Parse(x + c) == Before(Parse(x).frames, Parse(Parse(x).rest + c))
    ensures Parse(x).Malformed? ==> Parse(x + c) == Parse(x)
    decreases |x|
  {
    if |x| < 4 {
      assert Parse(x) == Parsed([], x);
      assert Before([], Parse(x + c)) == Parse(x + c);
    } else {
      var xc := x + c;
      assert xc[..4] == x[..4];
      var n := DecodeI32(x[..4]);
      if n < 0 {
        assert Parse(x) == Malformed([]);
        assert Parse(xc) == Malformed([]);
      } else if |x| - 4 < n {
        assert Parse(x) == Parsed([], x);
        assert Before([], Parse(xc)) == Parse(xc);
      } else {
        assert xc[4..4 + n] == x[4..4 + n];
        assert xc[4 + n..] == x[4 + n..] + c;
        var p := x[4..4 + n];
        ParseComplete(x);
        ParseComplete(xc);
        ParseAppend(x[4 + n..], c);
        var px := Parse(x[4 + n..]);
        if px.Parsed? {
          BeforeBefore([p], px.frames, Parse(px.rest + c));
        }
      }
    }
  }

  lemma BeforeBefore(a: seq<seq<byte>>, b: seq<seq<byte>>, p: Parsed)
    ensures Before(a, Before(b, p)) == Before(a + b, p)
  {
  }

  /** Parse, unfolded once at a complete first frame. */
  lemma ParseComplete(s: seq<byte>)
    requires |s| >= 4 && 0 <= DecodeI32(s[..4]) <= |s| - 4
    ensures Parse(s) == Before([s[4..4 + DecodeI32(s[..4])]], Parse(s[4 + DecodeI32(s[..4])..]))
  {
  }

  /** What a frame in progress stands for on the wire: its length prefix
      and the bytes received so far. */
  function Pending(asm: Assembly): (w: seq<byte>)
    requires asm.Valid()
    ensures asm.frameLeft == 0 <==> w == []
  {
    if asm.frameLeft == 0 then [] else EncodeI32(|asm.frame| + asm.frameLeft) + asm.frame
  }

  predicate Agrees(d: Drained, p: Parsed)
    requires d.Drained? ==> d.asm.Valid()
  {
    match d
    case Drained(a, fs, st) => p == Parsed(fs, Pending(a) + st)
    case Faulted(fs) => p == Malformed(fs)
  }

  lemma EmitFirstAgrees(payload: seq<byte>, d: Drained, p: Parsed)
    requires d.Drained? ==> d.asm.Valid()
    requires Agrees(d, p)
    ensures Agrees(EmitFirst(payload, d), Before([payload], p))
  {
  }

  /** One pass of the chunk loop emits exactly the frames the reference
      reading finds in the frame in progress followed by the data, and
      keeps exactly the incomplete rest, as a frame in progress or as
      stashed residual bytes. */
  lemma {:induction false} DrainMatchesParse(asm: Assembly, data: seq<byte>)
    requires asm.Valid()
    ensures Agrees(Drain(asm, data), Parse(Pending(asm) + data))
    decreases |data|, 1
  {
    if asm.frameLeft == 0 {
      assert Pending(asm) + data == data;
      if |data| >= 4 && DecodeI32(data[..4]) >= 0 {
        if |data| - 4 >= DecodeI32(data[..4]) {
          IdleCompleteMatches(asm, data);
        } else {
          IdlePartialMatches(asm, data);
        }
      }
    } else if |data| >= asm.frameLeft {
      InFrameCompleteMatches(asm, data);
    } else {
      InFramePartialMatches(asm, data);
    }
  }

  lemma {:induction false} IdleCompleteMatches(asm: Assembly, data: seq<byte>)
    requires asm.Valid() && asm.frameLeft == 0
    requires |data| >= 4 && 0 <= DecodeI32(data[..4]) <= |data| - 4
    ensures Agrees(Drain(asm, data), Parse(data))
    decreases |data|, 0
  {
    var n := DecodeI32(data[..4]);
    var avail := data[4..];
    var rest := avail[n..];
    assert data[4 + n..] == rest && data[4..4 + n] == avail[..n];
    assert [] + avail[..n] == avail[..n];
    assert Drain(asm, data) == EmitFirst(avail[..n], Drain(Idle, rest));
    ParseComplete(data);
    DrainMatchesParse(Idle, rest);
    assert Pending(Idle) + rest == rest;
    EmitFirstAgrees(avail[..n], Drain(Idle, rest), Parse(rest));
  }

  lemma IdlePartialMatches(asm: Assembly, data: seq<byte>)
    requires asm.Valid() && asm.frameLeft == 0
    requires |data| >= 4 && 0 <= DecodeI32(data[..4]) && |data| - 4 < DecodeI32(data[..4])
    ensures Agrees(Drain(asm, data), Parse(data))
  {
    var a := Assembly(DecodeI32(data[..4]) - (|data| - 4), data[4..]);
    assert Drain(asm, data) == Drained(a, [], []);
    assert Parse(data) == Parsed([], data);
    HeaderPending(data);
    assert Pending(a) + [] == data;
  }

  /** A length prefix with too few bytes after it is, on the wire, the
      frame in progress the loop keeps for it. */
  lemma HeaderPending(data: seq<byte>)
    requires |data| >= 4 && |data| - 4 < DecodeI32(data[..4])
    ensures Assembly(DecodeI32(data[..4]) - (|data| - 4), data[4..]).Valid()
    ensures Pending(Assembly(DecodeI32(data[..4]) - (|data| - 4), data[4..])) == data
  {
    EncodeDecodeI32(data[..4]);
    assert data == data[..4] + data[4..];
  }

  lemma {:induction false} InFrameCompleteMatches(asm: Assembly, data: seq<byte>)
    requires asm.Valid() && 0 < asm.frameLeft <= |data|
    ensures Agrees(Drain(asm, data), Parse(Pending(asm) + data))
    decreases |data|, 0
  {
    var payload := asm.frame + data[..asm.frameLeft];
    var rest := data[asm.frameLeft..];
    var d := Drain(Idle, rest);
    var p := Parse(rest);
    PendingParse(asm, data);
    DrainCompletes(asm, data);
    DrainMatchesParse(Idle, rest);
    assert Pending(Idle) + rest == rest;
    EmitFirstAgrees(payload, d, p);
  }

  /** The reference reading of a frame in progress followed by at least
      the bytes it misses: that frame, then whatever the remaining data
      holds. */
  lemma PendingParse(asm: Assembly, data: seq<byte>)
    requires asm.Valid() && 0 < asm.frameLeft <= |data|
    ensures Parse(Pending(asm) + data) == Before([asm.frame + data[..asm.frameLeft]], Parse(data[asm.frameLeft..]))
  {
    PendingCompletes(asm, data);
    ParseFrame(asm.frame + data[..asm.frameLeft], data[asm.frameLeft..]);
  }

  /** Parse, unfolded once at a whole frame in front of other bytes. */
  lemma ParseFrame(payload: seq<byte>, rest: seq<byte>)
    requires |payload| <= MaxI32
    ensures Parse(Frame(payload) + rest) == Before([payload], Parse(rest))
  {
    var s := Frame(payload) + rest;
    assert s[..4] == EncodeI32(|payload|);
    assert s[4..4 + |payload|] == payload;
    assert s[4 + |payload|..] == rest;
    ParseComplete(s);
  }

  /** A frame in progress followed by at least the bytes it misses is, on
      the wire, that frame whole, then the remaining data. */
  lemma PendingCompletes(asm: Assembly, data: seq<byte>)
    requires asm.Valid() && 0 < asm.frameLeft <= |data|
    ensures |asm.frame + data[..asm.frameLeft]| <= MaxI32
    ensures Pending(asm) + data == Frame(asm.frame + data[..asm.frameLeft]) + data[asm.frameLeft..]
  {
    var payload := asm.frame + data[..asm.frameLeft];
    assert data == data[..asm.frameLeft] + data[asm.frameLeft..];
    assert EncodeI32(|payload|) + payload + data[asm.frameLeft..] == EncodeI32(|payload|) + (asm.frame + data);
  }

  /** The loop finishes a frame in progress once the bytes it misses have
      arrived. */
  lemma DrainCompletes(asm: Assembly, data: seq<byte>)
    requires asm.Valid() && 0 < asm.frameLeft <= |data|
    ensures Drain(asm, data) == EmitFirst(asm.frame + data[..asm.frameLeft], Drain(Idle, data[asm.frameLeft..]))
  {
  }

  lemma InFramePartialMatches(asm: Assembly, data: seq<byte>)
    requires asm.Valid() && |data| < asm.frameLeft
    ensures Agrees(Drain(asm, data), Parse(Pending(asm) + data))
  {
    var a := Assembly(asm.frameLeft - |data|, asm.frame + data);
    if |data| == 0 {
      assert a == asm;
    }
    assert Drain(asm, data) == Drained(a, [], []);
    PendingGrows(asm, data);
    PendingIncomplete(a);
  }

  /** Bytes that do not finish a frame in progress only extend it. */
  lemma PendingGrows(asm: Assembly, data: seq<byte>)
    requires asm.Valid() && |data| < asm.frameLeft
    ensures Pending(Assembly(asm.frameLeft - |data|, asm.frame + data)) == Pending(asm) + data
  {
    assert |asm.frame + data| + (asm.frameLeft - |data|) == |asm.frame| + asm.frameLeft;
  }

  /** A frame in progress is not yet a complete frame to the reference
      reading. */
  lemma PendingIncomplete(asm: Assembly)
    requires asm.Valid() && asm.frameLeft > 0
    ensures Parse(Pending(asm)) == Parsed([], Pending(asm))
  {
    var s := Pending(asm);
    assert s[..4] == EncodeI32(|asm.frame| + asm.frameLeft);
  }

  /** What the receiver delivered: its new state and the payloads handed
      to the callback, or only the payloads when a negative length prefix
      stopped it (the model does not follow a receiver past that). */
  datatype Delivery = Delivered(rx: Receiver, frames: seq<seq<byte>>) | Stopped(frames: seq<seq<byte>>)

  /** The receiver callback on one chunk, as written: any residual is put
      in front of the chunk, but the source never resets it to null, so
      once set it is put in front of every later chunk as well. */
  function Step(rx: Receiver, chunk: seq<byte>): (r: Delivery)
    requires rx.Valid()
    ensures r.Delivered? ==> r.rx.Valid()
    ensures r.Delivered? && |rx.residual| > 0 ==> |r.rx.residual| > 0
  {
    var data := if |rx.residual| > 0 then rx.residual + chunk else chunk;
    match Drain(rx.asm, data)
    case Faulted(fs) => Stopped(fs)
    case Drained(a, fs, st) => Delivered(Receiver(a, if |st| > 0 then st else rx.residual), fs)
  }

  /** The receiver callback on a list of chunks in arrival order. */
  function Feed(rx: Receiver, chunks: seq<seq<byte>>): (r: Delivery)
    requires rx.Valid()
    ensures r.Delivered? ==> r.rx.Valid()
    ensures r.Delivered? && |rx.residual| > 0 ==> |r.rx.residual| > 0
    decreases |chunks|
  {
    if |chunks| == 0 then Delivered(rx, [])
    else
      match Feed(rx, chunks[..|chunks| - 1])
      case Stopped(fs) => Stopped(fs)
      case Delivered(rx1, fs1) =>
        match Step(rx1, chunks[|chunks| - 1])
        case Stopped(fs2) => Stopped(fs1 + fs2)
        case Delivered(rx2, fs2) => Delivered(rx2, fs1 + fs2)
  }

  /** Reassembly on traces where no residual was ever stored: the payloads
      handed to the callback are exactly the complete frames of the
      concatenated chunks, in order, and the frame in progress holds
      exactly the incomplete rest. */
  lemma {:induction false} FeedMatchesParse(chunks: seq<seq<byte>>)
    ensures Feed(Initial, chunks).Delivered? && Feed(Initial, chunks).rx.residual == [] ==>
      Parse(Flatten(chunks)) == Parsed(Feed(Initial, chunks).frames, Pending(Feed(Initial, chunks).rx.asm))
    decreases |chunks|
  {
    var r := Feed(Initial, chunks);
    if |chunks| > 0 && r.Delivered? && r.rx.residual == [] {
      var init := chunks[..|chunks| - 1];
      var c := chunks[|chunks| - 1];
      FeedMatchesParse(init);
      var r1 := Feed(Initial, init);
      assert r1.Delivered?;
      assert r1.rx.residual == [];
      assert Flatten(chunks) == Flatten(init) + c;
      ParseAppend(Flatten(init), c);
      DrainMatchesParse(r1.rx.asm, c);
      BeforeBefore([], r1.frames, Parse(Pending(r1.rx.asm) + c));
    }
  }

  /** Whole frames split into chunks in any way that never leaves a
      residual come out as exactly those frames, empty ones included, and
      leave the receiver between frames. */
  lemma WireReassembly(chunks: seq<seq<byte>>, payloads: seq<seq<byte>>)
    requires Framable(payloads)
    requires Flatten(chunks) == Wire(payloads)
    requires Feed(Initial, chunks).Delivered? && Feed(Initial, chunks).rx.residual == []
    ensures Feed(Initial, chunks).frames == payloads
    ensures Feed(Initial, chunks).rx.asm.frameLeft == 0
  {
    FeedMatchesParse(chunks);
    ParseWire(payloads);
  }

  /** The stale residual: eight zero bytes (two empty frames) split 2 + 6,
      then a one-byte frame. The second chunk consumes the two stashed
      bytes correctly, but they are put in front of the third chunk again,
      so a spurious empty frame is emitted and the real one is lost in a
      new residual. */
  lemma StaleResidualCounterexample()
    ensures Flatten([[0, 0], [0, 0, 0, 0, 0, 0], [0, 0, 0, 1, 42]]) == Wire([[], [], [42]])
    ensures Feed(Initial, [[0, 0], [0, 0, 0, 0, 0, 0], [0, 0, 0, 1, 42]])
         == Delivered(Receiver(Idle, [0, 1, 42]), [[], [], []])
    ensures FeedFixed(Initial, [[0, 0], [0, 0, 0, 0, 0, 0], [0, 0, 0, 1, 42]]).frames == [[], [], [42]]
  {
    CounterexampleWire();
    FixedWireReassembly([[0, 0], [0, 0, 0, 0, 0, 0], [0, 0, 0, 1, 42]], [[], [], [42]]);
    CounterexampleFeed();
  }

  lemma CounterexampleFeed()
    ensures Feed(Initial, [[0, 0], [0, 0, 0, 0, 0, 0], [0, 0, 0, 1, 42]])
         == Delivered(Receiver(Idle, [0, 1, 42]), [[], [], []])
  {
    var chunks: seq<seq<byte>> := [[0, 0], [0, 0, 0, 0, 0, 0], [0, 0, 0, 1, 42]];
    CounterexampleTwoChunks();
    CounterexampleThirdChunk();
    assert chunks[..2] == [[0, 0], [0, 0, 0, 0, 0, 0]];
  }

  /** The third chunk is preceded by the stale residual again. */
  lemma CounterexampleThirdChunk()
    ensures Step(Receiver(Idle, [0, 0]), [0, 0, 0, 1, 42]) == Delivered(Receiver(Idle, [0, 1, 42]), [[]])
  {
    var c2: seq<byte> := [0, 0, 0, 1, 42];
    var d2: seq<byte> := [0, 0] + c2;
    var zero: seq<byte> := [0, 0, 0, 0];
    var rest: seq<byte> := [0, 1, 42];
    assert d2[..4] == zero && d2[4..] == rest;
    BigEndian4(zero);
    assert DecodeI32(zero) == 0;
    assert Drain(Idle, rest) == Drained(Idle, [], rest);
    DrainEmptyFrame(d2);
  }

  /** Between frames, a zero length prefix is an empty frame, emitted at
      once. */
  lemma DrainEmptyFrame(data: seq<byte>)
    requires |data| >= 4 && DecodeI32(data[..4]) == 0
    ensures Drain(Idle, data) == EmitFirst([], Drain(Idle, data[4..]))
  {
    var avail := data[4..];
    var none: seq<byte> := [];
    assert none + avail[..0] == none;
    assert avail[0..] == avail;
  }

  lemma CounterexampleWire()
    ensures Flatten([[0, 0], [0, 0, 0, 0, 0, 0], [0, 0, 0, 1, 42]]) == Wire([[], [], [42]])
  {
    CounterexampleFlatten();
    CounterexampleFrames();
  }

  lemma CounterexampleFlatten()
    ensures Flatten([[0, 0], [0, 0, 0, 0, 0, 0], [0, 0, 0, 1, 42]]) == [0, 0, 0, 0, 0, 0, 0, 0, 0, 0, 0, 1, 42]
  {
    var chunks: seq<seq<byte>> := [[0, 0], [0, 0, 0, 0, 0, 0], [0, 0, 0, 1, 42]];
    assert chunks[..2][..1] == chunks[..1];
    assert chunks[..1][..0] == [];
    assert Flatten(chunks[..1]) == [0, 0];
    assert Flatten(chunks[..2]) == [0, 0] + [0, 0, 0, 0, 0, 0];
  }

  lemma CounterexampleFrames()
    ensures Wire([[], [], [42]]) == [0, 0, 0, 0, 0, 0, 0, 0, 0, 0, 0, 1, 42]
  {
    var zero: seq<byte> := [0, 0, 0, 0];
    var one: seq<byte> := [0, 0, 0, 1];
    assert EncodeI32(0) == zero by { EncodeDecodeI32(zero); }
    assert EncodeI32(1) == one by { EncodeDecodeI32(one); }
    var ps: seq<seq<byte>> := [[], [], [42]];
    assert ps[1..] == [[], [42]] && ps[1..][1..] == [[42]] && ps[1..][1..][1..] == [];
    assert Wire([[42]]) == one + [42];
    assert Wire([[], [42]]) == zero + one + [42];
  }

  lemma CounterexampleTwoChunks()
    ensures Feed(Initial, [[0, 0], [0, 0, 0, 0, 0, 0]]) == Delivered(Receiver(Idle, [0, 0]), [[], []])
  {
    var c0: seq<byte> := [0, 0];
    var c1: seq<byte> := [0, 0, 0, 0, 0, 0];
    CounterexampleOneChunk();
    assert [c0, c1][..1] == [c0];
    var d1 := c0 + c1;
    var zero: seq<byte> := [0, 0, 0, 0];
    BigEndian4(zero);
    assert DecodeI32(zero) == 0;
    assert d1[..4] == zero && d1[4..] == zero;
    assert zero[..4] == zero && zero[4..] == [];
    assert Drain(Idle, zero) == Drained(Idle, [[]], []);
    assert Drain(Idle, d1) == Drained(Idle, [[], []], []);
    assert Step(Receiver(Idle, c0), c1) == Delivered(Receiver(Idle, c0), [[], []]);
  }

  lemma CounterexampleOneChunk()
    ensures Feed(Initial, [[0, 0]]) == Delivered(Receiver(Idle, [0, 0]), [])
  {
    var c0: seq<byte> := [0, 0];
    assert [c0][..0] == [];
    assert Drain(Idle, c0) == Drained(Idle, [], c0);
  }

  /** A receiver whose residual is only ever stored between frames. */
  predicate Settled(rx: Receiver)
  {
    rx.Valid() && (|rx.residual| > 0 ==> rx.asm.frameLeft == 0)
  }

  /** Everything a receiver holds back, as it stood on the wire. */
  function Backlog(rx: Receiver): seq<byte>
    requires rx.Valid()
  {
    Pending(rx.asm) + rx.residual
  }

  /** The receiver callback with the residual consumed by the chunk it is
      put in front of (residual reset to null after line 40). */
  function StepFixed(rx: Receiver, chunk: seq<byte>): (r: Delivery)
    requires rx.Valid()
    ensures r.Delivered? ==> Settled(r.rx)
  {
    match Drain(rx.asm, rx.residual + chunk)
    case Faulted(fs) => Stopped(fs)
    case Drained(a, fs, st) => Delivered(Receiver(a, st), fs)
  }

  function FeedFixed(rx: Receiver, chunks: seq<seq<byte>>): (r: Delivery)
    requires rx.Valid()
    ensures r.Delivered? ==> r.rx.Valid()
    decreases |chunks|
  {
    if |chunks| == 0 then Delivered(rx, [])
    else
      match FeedFixed(rx, chunks[..|chunks| - 1])
      case Stopped(fs) => Stopped(fs)
      case Delivered(rx1, fs1) =>
        match StepFixed(rx1, chunks[|chunks| - 1])
        case Stopped(fs2) => Stopped(fs1 + fs2)
        case Delivered(rx2, fs2) => Delivered(rx2, fs1 + fs2)
  }

  predicate DeliveryAgrees(d: Delivery, p: Parsed)
    requires d.Delivered? ==> d.rx.Valid()
  {
    match d
    case Delivered(rx, fs) => p == Parsed(fs, Backlog(rx))
    case Stopped(fs) => p == Malformed(fs)
  }

  /** With the residual consumed, reassembly holds for every split of the
      stream into chunks: the payloads delivered are exactly the complete
      frames of the concatenated chunks, in order, the receiver holds
      back exactly the incomplete rest, and it stops exactly where the
      stream has a negative length prefix. */
  lemma {:induction false} FeedFixedMatchesParse(chunks: seq<seq<byte>>)
    ensures DeliveryAgrees(FeedFixed(Initial, chunks), Parse(Flatten(chunks)))
    decreases |chunks|
  {
    if |chunks| > 0 {
      var init := chunks[..|chunks| - 1];
      var c := chunks[|chunks| - 1];
      FeedFixedMatchesParse(init);
      assert Flatten(chunks) == Flatten(init) + c;
      ParseAppend(Flatten(init), c);
      var r1 := FeedFixed(Initial, init);
      if r1.Delivered? {
        StepFixedMatchesParse(r1.rx, c);
        BeforeBefore([], r1.frames, Parse(Backlog(r1.rx) + c));
      }
    }
  }

  lemma StepFixedMatchesParse(rx: Receiver, chunk: seq<byte>)
    requires rx.Valid()
    ensures DeliveryAgrees(StepFixed(rx, chunk), Parse(Backlog(rx) + chunk))
  {
    DrainMatchesParse(rx.asm, rx.residual + chunk);
    assert Pending(rx.asm) + (rx.residual + chunk) == Backlog(rx) + chunk;
  }

  /** Whole frames split into chunks in any way come out as exactly those
      frames, in order, empty ones included, and leave the receiver
      between frames with nothing held back. */
  lemma FixedWireReassembly(chunks: seq<seq<byte>>, payloads: seq<seq<byte>>)
    requires Framable(payloads)
    requires Flatten(chunks) == Wire(payloads)
    ensures FeedFixed(Initial, chunks).Delivered?
    ensures FeedFixed(Initial, chunks).frames == payloads
    ensures FeedFixed(Initial, chunks).rx.asm.frameLeft == 0 && FeedFixed(Initial, chunks).rx.residual == []
  {
    FeedFixedMatchesParse(chunks);
    ParseWire(payloads);
  }
}

=== FILE: framed.dfy ===
/** The framed transport's reader/writer (TFramedTransport in
    lib/thrift/transport.js): reads walk one cursor over an immutable
    frame payload; writes fill a chain of chunks that `flush` sends behind a
    four-byte big-endian length. */
module FramedTransport {
  import opened Bytes

  /** Smallest chunk `write` allocates. */
  const MinChunkSize: nat := 1024

  /** One outbound chunk: `size` bytes were allocated and the first `cur`
      of them hold `filled`. The bytes past `cur` are never read, so the
      model does not carry them. */
  datatype Chunk = Chunk(size: nat, filled: seq<byte>)
  {
    function Cur(): nat { |filled| }

    predicate Valid() { MinChunkSize <= size && |filled| <= size }
  }

  /** The bytes written so far: the filled region of every chunk, in order. */
  function Written(chunks: seq<Chunk>): seq<byte>
  {
    if |chunks| == 0 then [] else Written(chunks[..|chunks| - 1]) + chunks[|chunks| - 1].filled
  }

  /** Sum of the chunks' fill offsets. */
  function SumCur(chunks: seq<Chunk>): nat
  {
    if |chunks| == 0 then 0 else SumCur(chunks[..|chunks| - 1]) + chunks[|chunks| - 1].Cur()
  }

  lemma {:induction false} SumCurIsWrittenLength(chunks: seq<Chunk>)
    ensures SumCur(chunks) == |Written(chunks)|
  {
    if |chunks| > 0 {
      SumCurIsWrittenLength(chunks[..|chunks| - 1]);
    }
  }

  /** `hasSink` records whether a flush callback was supplied. */
  datatype Framed = Framed(inBuf: seq<byte>, readPos: nat, outBuffers: seq<Chunk>, outCount: int, hasSink: bool)
  {
    predicate Valid()
    {
      && (forall i :: 0 <= i < |outBuffers| ==> outBuffers[i].Valid())
      && outCount == |Written(outBuffers)|
    }
  }

  datatype ReadResult<T> = Got(value: T, next: Framed) | NotEnoughData

  /** A fresh transport over `payload` (an omitted buffer is the empty one). */
  function New(payload: seq<byte>, hasSink: bool): (t: Framed)
    ensures t.Valid() && t.readPos == 0 && t.outCount == 0 && Written(t.outBuffers) == []
    ensures t.inBuf == payload && t.hasSink == hasSink
  {
    Framed(payload, 0, [], 0, hasSink)
  }

  /** read(len): the next `len` payload bytes, or an error (and no state
      change) when they run past the end of the frame. */
  function Read(t: Framed, len: nat): (r: ReadResult<seq<byte>>)
    ensures r.Got? <==> t.readPos + len <= |t.inBuf|
    ensures r.Got? ==> |r.value| == len && r.next == t.(readPos := t.readPos + len)
    ensures r.Got? ==> forall i :: 0 <= i < len ==> r.value[i] == t.inBuf[t.readPos + i]
  {
    var end := t.readPos + len;
    if |t.inBuf| < end then NotEnoughData
    else Got(t.inBuf[t.readPos..end], t.(readPos := end))
  }

  /** Two reads in a row return the two halves of one longer read. */
  lemma ReadConsecutive(t: Framed, a: nat, b: nat)
    requires t.readPos + a + b <= |t.inBuf|
    ensures Read(t, a).Got? && Read(Read(t, a).next, b).Got?
    ensures Read(t, a).value + Read(Read(t, a).next, b).value == Read(t, a + b).value
    ensures Read(Read(t, a).next, b).next == Read(t, a + b).next
  {
    var x := Read(t, a).value;
    var y := Read(Read(t, a).next, b).value;
    assert x + y == t.inBuf[t.readPos..t.readPos + a + b];
  }

  /** readByte: one signed byte. The cursor moves before Node's bounds
      check runs, so a failing readByte would leave it advanced; that error
      is not modelled and the byte must exist. */
  function ReadByte(t: Framed): (r: ReadResult<int>)
    requires t.readPos < |t.inBuf|
    ensures r.Got? && Read(t, 1).Got?
    ensures r.value == DecodeI8(Read(t, 1).value[0]) && r.next == Read(t, 1).next
  {
    Got(DecodeI8(t.inBuf[t.readPos]), t.(readPos := t.readPos + 1))
  }

  /** readI16: two bytes, big-endian two's complement. Past the end of
      the frame Node throws before the cursor moves, which is the same
      outcome as a failing read(2). */
  function ReadI16(t: Framed): (r: ReadResult<int>)
    ensures r.Got? <==> Read(t, 2).Got?
    ensures r.Got? ==> r.value == DecodeI16(Read(t, 2).value) && r.next == Read(t, 2).next
  {
    if |t.inBuf| < t.readPos + 2 then NotEnoughData
    else Got(DecodeI16(t.inBuf[t.readPos..t.readPos + 2]), t.(readPos := t.readPos + 2))
  }

  /** readI32: four bytes, big-endian two's complement; failing as
      readI16 does. */
  function ReadI32(t: Framed): (r: ReadResult<int>)
    ensures r.Got? <==> Read(t, 4).Got?
    ensures r.Got? ==> r.value == DecodeI32(Read(t, 4).value) && r.next == Read(t, 4).next
  {
    if |t.inBuf| < t.readPos + 4 then NotEnoughData
    else Got(DecodeI32(t.inBuf[t.readPos..t.readPos + 4]), t.(readPos := t.readPos + 4))
  }

  /** readDouble, as the eight raw bytes it decodes; failing as readI16
      does. */
  function ReadDouble(t: Framed): (r: ReadResult<seq<byte>>)
    ensures r == Read(t, 8)
  {
    if |t.inBuf| < t.readPos + 8 then NotEnoughData
    else Got(t.inBuf[t.readPos..t.readPos + 8], t.(readPos := t.readPos + 8))
  }

  function Min(a: nat, b: nat): nat { if a <= b then a else b }

  /** readString(len), as the bytes it decodes. There is no bounds check:
      the byte range is clipped to the payload and the cursor still moves
      by `len`, so it can pass the end of the frame. */
  function ReadString(t: Framed, len: nat): (r: ReadResult<seq<byte>>)
    ensures r.Got? && r.next == t.(readPos := t.readPos + len)
    ensures |r.value| <= len
    ensures t.readPos + len <= |t.inBuf| ==> r == Read(t, len)
    ensures t.readPos >= |t.inBuf| ==> r.value == []
    ensures t.readPos < |t.inBuf| < t.readPos + len ==>
      r == Got(Read(t, |t.inBuf| - t.readPos).value, t.(readPos := t.readPos + len))
  {
    var start := Min(t.readPos, |t.inBuf|);
    var end := Min(t.readPos + len, |t.inBuf|);
    Got(t.inBuf[start..end], t.(readPos := t.readPos + len))
  }

  /** readAll returns the whole payload, whatever has been read, and
      leaves the cursor alone. */
  function ReadAll(t: Framed): (r: ReadResult<seq<byte>>)
    ensures r.Got? && r.next == t
    ensures r.value == Read(t.(readPos := 0), |t.inBuf|).value
  {
    assert t.inBuf[0..|t.inBuf|] == t.inBuf;
    Got(t.inBuf, t)
  }

  /** Reads before a readAll do not change what it returns: the bytes a
      read took are still in it, at the place they were read from. */
  lemma ReadAllIgnoresCursor(t: Framed, len: nat)
    requires Read(t, len).Got?
    ensures ReadAll(Read(t, len).next).value == ReadAll(t).value
    ensures ReadAll(Read(t, len).next).value[t.readPos..t.readPos + len] == Read(t, len).value
  {
  }

  /** commitPosition and rollbackPosition have nothing to do on a complete
      frame. */
  function CommitPosition(t: Framed): (r: Framed)
    ensures r == t
  {
    t
  }

  /** Unlike the buffered reader's, a rollback here does not rewind the
      cursor. */
  function RollbackPosition(t: Framed): (r: Framed)
    ensures r == t
  {
    t
  }

  /** Commit and rollback between reads on a frame leave the next read as
      it was: bytes already read are not read again. */
  lemma PositionNoOps(t: Framed, a: nat, b: nat)
    requires Read(t, a).Got?
    ensures RollbackPosition(CommitPosition(Read(t, a).next)).readPos == t.readPos + a
    ensures Read(RollbackPosition(CommitPosition(Read(t, a).next)), b) == Read(Read(t, a).next, b)
  {
  }

  function Max(a: nat, b: nat): nat { if a >= b then a else b }

  /** write(buf, len) with `len` bytes of `buf` (an omitted `len` is
      |buf|). The bytes go into the last chunk when it has room, otherwise
      into a new chunk of max(len, 1024) bytes. */
  function Write(t: Framed, buf: seq<byte>, len: int): (r: Framed)
    requires t.Valid()
    requires len <= |buf|
    ensures r.Valid()
    ensures len <= 0 ==> r == t
    ensures len > 0 ==> r.outCount == t.outCount + len
    ensures len > 0 ==> Written(r.outBuffers) == Written(t.outBuffers) + buf[..len]
    ensures r.inBuf == t.inBuf && r.readPos == t.readPos && r.hasSink == t.hasSink
  {
    if len <= 0 then t
    else
      var n := |t.outBuffers|;
      var bytes := buf[..len];
      if n == 0 || t.outBuffers[n - 1].size - t.outBuffers[n - 1].Cur() < len then
        var added := Chunk(Max(len, MinChunkSize), bytes);
        Extend(t.outBuffers, added);
        t.(outBuffers := t.outBuffers + [added], outCount := t.outCount + len)
      else
        var last := t.outBuffers[n - 1];
        var grown := Chunk(last.size, last.filled + bytes);
        Extend(t.outBuffers[..n - 1], grown);
        assert Written(t.outBuffers) == Written(t.outBuffers[..n - 1]) + last.filled;
        t.(outBuffers := t.outBuffers[..n - 1] + [grown], outCount := t.outCount + len)
  }

  /** A valid chunk put after valid chunks keeps them all valid and adds
      its filled bytes to what was written. */
  lemma Extend(chunks: seq<Chunk>, c: Chunk)
    requires forall i :: 0 <= i < |chunks| ==> chunks[i].Valid()
    requires c.Valid()
    ensures forall i :: 0 <= i < |chunks + [c]| ==> (chunks + [c])[i].Valid()
    ensures Written(chunks + [c]) == Written(chunks) + c.filled
  {
    assert (chunks + [c])[..|chunks|] == chunks;
  }

  /** write(buf) for each buffer in order, with the length omitted. */
  function WriteAll(t: Framed, bufs: seq<seq<byte>>): (r: Framed)
    requires t.Valid()
    ensures r.Valid()
    ensures r.inBuf == t.inBuf && r.readPos == t.readPos && r.hasSink == t.hasSink
    decreases |bufs|
  {
    if |bufs| == 0 then t
    else WriteAll(Write(t, bufs[0], |bufs[0]|), bufs[1..])
  }

  /** Writing a list of buffers appends their concatenation, however the
      chunk chain was split. */
  lemma {:induction false} WriteAllAppends(t: Framed, bufs: seq<seq<byte>>)
    requires t.Valid()
    ensures Written(WriteAll(t, bufs).outBuffers) == Written(t.outBuffers) + Flatten(bufs)
    ensures WriteAll(t, bufs).outCount == t.outCount + |Flatten(bufs)|
    decreases |bufs|
  {
    if |bufs| == 0 {
    } else {
      var t1 := Write(t, bufs[0], |bufs[0]|);
      assert bufs[0][..|bufs[0]|] == bufs[0];
      assert Written(t1.outBuffers) == Written(t.outBuffers) + bufs[0];
      WriteAllAppends(t1, bufs[1..]);
      FlattenCons(bufs);
    }
  }

  datatype FlushResult = Flushed(next: Framed, sent: seq<seq<byte>>) | FlushRangeError

  /** flush: with a sink, one buffer holding the big-endian total length
      followed by every chunk's filled bytes; then the write state is
      cleared, sink or not. writeInt32BE rejects a total beyond 2^31 - 1,
      which leaves the state as it was. */
  function Flush(t: Framed): (r: FlushResult)
    requires t.Valid()
    ensures r.FlushRangeError? <==> t.hasSink && t.outCount > MaxI32
    ensures r.Flushed? ==> r.next == t.(outBuffers := [], outCount := 0) && r.next.Valid()
    ensures r.Flushed? && !t.hasSink ==> r.sent == []
    ensures r.Flushed? && t.hasSink ==>
      && |r.sent| == 1
      && |r.sent[0]| == 4 + t.outCount
      && DecodeI32(r.sent[0][..4]) == t.outCount
      && r.sent[0][4..] == Written(t.outBuffers)
  {
    if t.hasSink && t.outCount > MaxI32 then FlushRangeError
    else
      var sent := if t.hasSink then [EncodeI32(t.outCount) + Written(t.outBuffers)] else [];
      assert t.hasSink ==> sent[0][..4] == EncodeI32(t.outCount);
      Flushed(t.(outBuffers := [], outCount := 0), sent)
  }

  /** The lengths of a list of buffers. */
  function Lengths(bufs: seq<seq<byte>>): (lens: seq<nat>)
    ensures |lens| == |bufs|
    ensures forall i :: 0 <= i < |bufs| ==> lens[i] == |bufs[i]|
  {
    if |bufs| == 0 then [] else [|bufs[0]|] + Lengths(bufs[1..])
  }

  /** read(len) for each length in order; stops at the first failure. */
  function ReadMany(t: Framed, lens: seq<nat>): (r: ReadResult<seq<seq<byte>>>)
    ensures r.Got? ==> |r.value| == |lens|
    decreases |lens|
  {
    if |lens| == 0 then Got([], t)
    else
      match Read(t, lens[0])
      case NotEnoughData => NotEnoughData
      case Got(v, t1) =>
        match ReadMany(t1, lens[1..])
        case NotEnoughData => NotEnoughData
        case Got(vs, t2) => Got([v] + vs, t2)
  }

  /** Reading back, one by one, buffers whose concatenation the payload
      holds at the cursor returns exactly those buffers. */
  lemma {:induction false} ReadManyReturnsWrites(t: Framed, bufs: seq<seq<byte>>)
    requires t.readPos + |Flatten(bufs)| <= |t.inBuf|
    requires t.inBuf[t.readPos..t.readPos + |Flatten(bufs)|] == Flatten(bufs)
    ensures ReadMany(t, Lengths(bufs)) == Got(bufs, t.(readPos := t.readPos + |Flatten(bufs)|))
    decreases |bufs|
  {
    if |bufs| == 0 {
    } else {
      var rest := bufs[1..];
      assert [bufs[0]] + rest == bufs;
      FlattenAppend([bufs[0]], rest);
      FlattenSingle(bufs[0]);
      var w := Flatten(bufs);
      assert w == bufs[0] + Flatten(rest);
      var t1 := t.(readPos := t.readPos + |bufs[0]|);
      assert Read(t, |bufs[0]|) == Got(bufs[0], t1) by {
        assert t.inBuf[t.readPos..t.readPos + |bufs[0]|] == w[..|bufs[0]|];
      }
      assert t1.inBuf[t1.readPos..t1.readPos + |Flatten(rest)|] == w[|bufs[0]|..];
      ReadManyReturnsWrites(t1, rest);
      assert Lengths(bufs)[1..] == Lengths(rest);
    }
  }
}

=== FILE: framed_wire.dfy ===
/** How the framed writer and the frame assembler fit together: what one
    side flushes, the other reassembles into a frame that reads back as
    the bytes written. */
module FramedWire {
  import opened Bytes
  import opened FramedTransport
  import opened FrameReceiver

  /** The transports the receiver hands to its callback, one per payload
      (new TFramedTransport(frame), without a flush callback). */
  function Transports(frames: seq<seq<byte>>): (ts: seq<Framed>)
    ensures |ts| == |frames|
    ensures forall i :: 0 <= i < |frames| ==> ts[i].Valid() && ts[i].inBuf == frames[i] && ts[i].readPos == 0
  {
    if |frames| == 0 then [] else [New(frames[0], false)] + Transports(frames[1..])
  }

  /** A flushed buffer is one frame on the wire carrying the written
      bytes. */
  lemma FlushIsFrame(t: Framed)
    requires t.Valid() && t.hasSink && t.outCount <= MaxI32
    ensures Flush(t).Flushed? && |Flush(t).sent| == 1
    ensures |Written(t.outBuffers)| <= MaxI32
    ensures Flush(t).sent[0] == Wire([Written(t.outBuffers)])
  {
    var w := Written(t.outBuffers);
    var out := Flush(t).sent[0];
    EncodeDecodeI32(out[..4]);
    assert out == out[..4] + out[4..];
    assert [w][1..] == [];
  }

  /** Flush output delivered as a single chunk to a fresh receiver comes
      out as exactly one frame holding the written bytes, and leaves the
      receiver between frames. */
  lemma FlushThenReceive(t: Framed)
    requires t.Valid() && t.hasSink && t.outCount <= MaxI32
    ensures Flush(t).Flushed? && |Flush(t).sent| == 1
    ensures Feed(Initial, Flush(t).sent).Delivered?
    ensures Feed(Initial, Flush(t).sent).frames == [Written(t.outBuffers)]
    ensures Feed(Initial, Flush(t).sent).rx.asm.frameLeft == 0
    ensures Feed(Initial, Flush(t).sent).rx.residual == []
  {
    FlushIsFrame(t);
    assert Flush(t).sent == [Wire([Written(t.outBuffers)])];
    ReceiveOneFrame(Written(t.outBuffers));
  }

  /** One whole frame as the only chunk: a fresh receiver emits its
      payload and is left between frames with no residual stored. */
  lemma ReceiveOneFrame(w: seq<byte>)
    requires |w| <= MaxI32
    ensures Feed(Initial, [Wire([w])]).Delivered?
    ensures Feed(Initial, [Wire([w])]).frames == [w]
    ensures Feed(Initial, [Wire([w])]).rx.asm.frameLeft == 0
    ensures Feed(Initial, [Wire([w])]).rx.residual == []
  {
    var out := Wire([w]);
    ParseWire([w]);
    DrainMatchesParse(Idle, out);
    assert Pending(Idle) + out == out;
    assert [out][..0] == [];
    assert Feed(Initial, [out]) == Step(Initial, out);
  }

  /** With the residual consumed, the same holds however the flushed
      buffer is split into chunks. */
  lemma FlushThenReceiveSplit(t: Framed, chunks: seq<seq<byte>>)
    requires t.Valid() && t.hasSink && t.outCount <= MaxI32
    requires Flush(t).Flushed? && |Flush(t).sent| == 1 && Flatten(chunks) == Flush(t).sent[0]
    ensures FeedFixed(Initial, chunks).Delivered?
    ensures FeedFixed(Initial, chunks).frames == [Written(t.outBuffers)]
  {
    FlushIsFrame(t);
    FixedWireReassembly(chunks, [Written(t.outBuffers)]);
  }

  /** Round trip: buffers written to a fresh transport and flushed,
      received in any split, read back one by one from the delivered frame
      as exactly the buffers written. */
  lemma WriteFlushReceiveRead(bufs: seq<seq<byte>>, chunks: seq<seq<byte>>)
    requires |Flatten(bufs)| <= MaxI32
    requires Flush(WriteAll(New([], true), bufs)).Flushed?
    requires |Flush(WriteAll(New([], true), bufs)).sent| == 1
    requires Flatten(chunks) == Flush(WriteAll(New([], true), bufs)).sent[0]
    ensures FeedFixed(Initial, chunks).Delivered? && |FeedFixed(Initial, chunks).frames| == 1
    ensures ReadMany(Transports(FeedFixed(Initial, chunks).frames)[0], Lengths(bufs)).Got?
    ensures ReadMany(Transports(FeedFixed(Initial, chunks).frames)[0], Lengths(bufs)).value == bufs
  {
    var t := WriteAll(New([], true), bufs);
    WriteAllAppends(New([], true), bufs);
    FlushThenReceiveSplit(t, chunks);
    var f := Transports(FeedFixed(Initial, chunks).frames)[0];
    assert f.inBuf == Flatten(bufs);
    assert f.inBuf[0..|Flatten(bufs)|] == Flatten(bufs);
    ReadManyReturnsWrites(f, bufs);
  }
}
